=== FILE: README.md ===
# AgriTrace core in Dafny

This project is a Dafny model of the decision logic of the AgriTrace supply-chain app. It covers these parts:

- **QR codec** (`frontend/src/utils/qrCodeUtils.ts`). It builds a product payload. It signs the payload with the first eight hex digits of the Keccak-256 digest of the `JSON.stringify` text. It prints the payload, and it parses the printed text back, checking the format and the signature. It also formats a payload for display and decides expiry.
- **QR scanner component** (`QRCodeScanner.tsx`). `handleScan` and `clearScan` are modelled as a small state machine over the input, the scanned data, the validity flag and the error text.
- **Consumer scanner** (`ConsumerScanner.tsx`). `handleScan` extracts the first run of digits from the input. It then shows either the record read from the chain or the built-in mock record.
- **Distributor dashboard** helpers. These are the shipment status colour, the farmer lookup and the QR-scan handler. They also include the address, date and role formatting.
- **Farmer dashboard** rules. These are the crop variant table, the GI-tag test, the crop selection and the submit guards. They also include the quality check with its mock fallback.
- **Web3 configuration**: the role and status labels.
- **Translation context**. This covers the `t` lookup with its English fallback, and the check applied to the saved language.
- **Auth context**: the demo sign-in with fixed credentials, plus logout and restore from local storage.
- **Price estimator** (`backend/ml/predict_price.py`). This covers the commodity uplift and the pricing recommendations. It also covers the hints, anchor, weather nudge and clamp of `estimate_price_from_csv`, and the tier chain of the breakdown.
- **Quality predictor post-processing** (`backend/api/ml_utils.py`). A score becomes a label and a confidence, and a mock prediction is the fallback.

The JavaScript runtime the codec relies on is modelled too: JSON values, `JSON.stringify`, `JSON.parse` and UTF-8 encoding. Integer printing, `trim`, `includes` and `slice` are modelled as well. For these, the model proves that parsing a printed value gives the value back and that UTF-8 decoding inverts encoding. These two facts carry the codec's round trip.

Everything the code gets from outside is a parameter of the model. That covers:
- the Keccak hash;
- the clock;
- `Math.random`;
- locale date formatting;
- contract reads, where `None` stands for a call that throws;
- the translation function handed to components.

## Model

| member | source | states |
|---|---|---|
| QrCodec.GenerateQRCodeData | frontend/src/utils/qrCodeUtils.ts:28-63 | every field of the payload's data comes from the arguments; the verification URL is the base followed by the decimal id; the timestamp is the clock; the signature is the signature of exactly that data |
| QrCodec.DataToJson | frontend/src/utils/qrCodeUtils.ts:41-53 | the data record prints as an object with the eleven keys in source order |
| QrCodec.DataKeysDistinct | frontend/src/utils/qrCodeUtils.ts:41-53 | the eleven keys of the data object are pairwise distinct |
| QrCodec.DataFields | frontend/src/utils/qrCodeUtils.ts:41-53 | reading each key of the built object gives back the record field stored under it |
| QrCodec.Envelope | frontend/src/utils/qrCodeUtils.ts:55-60 | the payload object has exactly the four distinct keys type, version, data and signature, holding the two constants, the data and the signature |
| QrCodec.Sign | frontend/src/utils/qrCodeUtils.ts:68-73 | the signature is eight lower-case hex digits and equals characters 2 to 9 of the digest of the UTF-8 bytes of the printed data |
| QrCodec.VerifyQRCodeData | frontend/src/utils/qrCodeUtils.ts:78-86 | a payload verifies exactly when it has data and its signature is the string `Sign` computes over that data; without data it never verifies |
| QrCodec.ParseQRCodeData | frontend/src/utils/qrCodeUtils.ts:91-110 | an accepted text parses to an object of the right type and version, with data, whose signature verifies |
| QrCodec.Classify | frontend/src/utils/qrCodeUtils.ts:91-110 | the reason for rejection: not JSON exactly when parsing fails, wrong format exactly when the parsed value lacks the type or version, bad signature exactly when a well-formed envelope fails verification |
| QrCodec.ParseAcceptsIff | frontend/src/utils/qrCodeUtils.ts:91-110 | a text is accepted if and only if it parses, has the right type and version, and its signature string equals the signature of its data |
| QrCodec.FormatCheckedFirst | frontend/src/utils/qrCodeUtils.ts:96-98 | a correctly signed payload with the wrong type is rejected for its format, before the signature is looked at |
| QrCodec.WrongSignatureRejected | frontend/src/utils/qrCodeUtils.ts:101-103 | a payload whose signature differs from its data's signature is rejected |
| QrCodec.AnyDataAccepted | frontend/src/utils/qrCodeUtils.ts:78-110 | any well-formed data, correctly signed and enveloped, is accepted: the codec checks the signature and not the shape of the data |
| QrCodec.GenerateQRCodeString | frontend/src/utils/qrCodeUtils.ts:115-117 | the printed payload parses back to the payload object |
| QrCodec.VerifyGenerated | frontend/src/utils/qrCodeUtils.ts:28-86 | every generated payload verifies |
| QrCodec.GenerateParseRoundTrip | frontend/src/utils/qrCodeUtils.ts:28-117 | parsing the printed form of a generated payload accepts it and gives back the same payload |
| QrCodec.FormatProductDataForDisplay | frontend/src/utils/qrCodeUtils.ts:122-135 | the display record is always verified; crop is the crop type, " - " and the variety; quality is the score followed by "%"; the other fields are copied from the data |
| QrCodec.DisplayOfRecord | frontend/src/utils/qrCodeUtils.ts:122-135 | for a data record built by the codec, the display fields are the record's own values |
| QrCodec.DisplayOfFields | frontend/src/utils/qrCodeUtils.ts:125-129 | given string crop and variety and an integer score, crop and quality are built from exactly those values |
| QrCodec.DisplayOfGenerated | frontend/src/utils/qrCodeUtils.ts:28-135 | the display of a generated payload shows the farmer's crop, variety, score, id and name |
| QrCodec.Timestamp | frontend/src/utils/qrCodeUtils.ts:141 | reading the timestamp of a payload whose data is null throws |
| QrCodec.IsQRCodeExpired | frontend/src/utils/qrCodeUtils.ts:140-143 | with an integer timestamp, the payload is expired exactly when its age in milliseconds exceeds the maximum age in hours times 3,600,000; null data throws |
| QrCodec.FutureNotExpired | frontend/src/utils/qrCodeUtils.ts:140-143 | a payload stamped at or after the current time is never expired for a non-negative maximum age |
| QrCodec.GeneratedExpiry | frontend/src/utils/qrCodeUtils.ts:28-143 | a generated payload is expired exactly when more whole milliseconds have passed since generation than the maximum age allows |
| QrScanner.HandleScan | frontend/src/components/QRCodeScanner.tsx:37-77 | a blank input changes nothing; otherwise the scan is valid exactly when the text parses and the payload has not expired, and then the component shows the display record of the payload's data, clears the error and hands that record to the callback; data is held and the callback fires only for a valid scan |
| QrScanner.Reject | frontend/src/components/QRCodeScanner.tsx:46-59 | a rejection clears the scanned data, marks the scan invalid, sets the message and fires no callback |
| QrScanner.SetInput | frontend/src/components/QRCodeScanner.tsx:32 | typing changes the input and nothing else |
| QrScanner.ClearScan | frontend/src/components/QRCodeScanner.tsx:79-84 | clearing returns the component to its initial state |
| QrScanner.ConsistentInvariant | frontend/src/components/QRCodeScanner.tsx:32-84 | "data is shown exactly when the scan is valid" holds initially and after every handler |
| QrScanner.RejectedTextShowsInvalid | frontend/src/components/QRCodeScanner.tsx:44-51 | a text the codec rejects shows the invalid-format message and no data |
| QrScanner.ExpiredIsRejected | frontend/src/components/QRCodeScanner.tsx:53-60 | an accepted but expired payload shows the expired message and no data |
| QrScanner.NullDataCaught | frontend/src/components/QRCodeScanner.tsx:71-76 | an accepted payload whose data is null ends in the catch branch with the error's message |
| QrScanner.ScanGenerated | frontend/src/components/QRCodeScanner.tsx:37-77 | scanning the printed form of a payload generated within the last year shows its display record, marks it valid and hands it to the callback |
| QrScanner.GeneratedTextNotBlank | frontend/src/components/QRCodeScanner.tsx:38 | the printed form of a payload is never blank |
| Web3Config.GetRoleText | frontend/src/config/web3Config.ts:33-36 | roles 0 to 4 get their names; any other number gets "Unknown", and only those do |
| Web3Config.GetStatusText | frontend/src/config/web3Config.ts:38-50 | statuses 0 to 7 get their names; any other number gets "Unknown", and only those do |
| Web3Config.RoleConstantsNamed | frontend/src/config/web3Config.ts:24-36 | each role constant's label is the role's own name |
| Web3Config.LabelsInjective | frontend/src/config/web3Config.ts:33-50 | distinct valid roles, and distinct valid statuses, get distinct labels |
| ConsumerScanner.ExtractProductId | frontend/src/components/ConsumerScanner.tsx:131-138 | no id exactly when the input has no digit; otherwise the id is the value of the digit run starting at the first digit |
| ConsumerScanner.ExtractWrittenId | frontend/src/components/ConsumerScanner.tsx:130-138 | a number written after a digit-free prefix, for example "Product ID: 123", is extracted as that number |
| ConsumerScanner.FreshnessScore | frontend/src/components/ConsumerScanner.tsx:171 | the score is at least 60, and otherwise 100 minus two points per day since harvest |
| ConsumerScanner.Journey | frontend/src/components/ConsumerScanner.tsx:160-165 | one entry per status step, in order, each completed, with the step's status label, location and ISO time |
| ConsumerScanner.FromChain | frontend/src/components/ConsumerScanner.tsx:147-180 | a record is built exactly when every date is a valid time; it carries the "BLOCKCHAIN-" id, the chain's farmer and verification flag, and a freshness of at least 60 |
| ConsumerScanner.HandleScan | frontend/src/components/ConsumerScanner.tsx:121-200 | a blank input shows nothing; no digit gives the format error, and only it does; without a connection the mock record is shown; any shown record has a freshness of at least 60 |
| ConsumerScanner.ReadFailureShowsMock | frontend/src/components/ConsumerScanner.tsx:184-189 | when either chain read throws, the mock record is shown |
| ConsumerScanner.BadDateShowsMock | frontend/src/components/ConsumerScanner.tsx:152-187 | a harvest date or history time out of the date range makes building the record throw, and the sample record is shown |
| ConsumerScanner.ChainRecordShown | frontend/src/components/ConsumerScanner.tsx:140-183 | when connected and both reads succeed, the chain record is shown, with its id and one completed journey entry per status step |
| Distributor.GetStatusColor | frontend/src/components/DistributorDashboard.tsx:90-97 | each shipment status has its colour; anything else is grey |
| Distributor.StatusColorIff | frontend/src/components/DistributorDashboard.tsx:90-97 | the colour is grey exactly for unknown statuses, and distinct known statuses get distinct colours |
| Distributor.LookupFarmer | frontend/src/components/DistributorDashboard.tsx:109-159 | a blank address and a missing connection are refused in that order and change nothing; the lookup loads exactly when both the user read and the product-id read succeed, and a failure of either clears details and products; a load stores the user and exactly the products of the farmer's ids that could be read, in id order |
| Distributor.RefusalsReadNothing | frontend/src/components/DistributorDashboard.tsx:110-118 | a refused lookup does not depend on anything the contract would return |
| Distributor.LoadedProducts | frontend/src/components/DistributorDashboard.tsx:133-148 | the stored products are exactly the readable products of the farmer's ids: each one comes from some id, and no readable one is lost |
| Distributor.LoadedInIdOrder | frontend/src/components/DistributorDashboard.tsx:133-146 | filtering the reads keeps the order of the ids: reading two id lists in sequence gives the two results one after the other |
| Distributor.ProductSelect | frontend/src/components/DistributorDashboard.tsx:161-174 | a successful read selects the product; a failed one changes nothing |
| Distributor.SelectKeepsLookup | frontend/src/components/DistributorDashboard.tsx:161-174 | selecting never alters the looked-up farmer, the loaded products or the tab; it is idempotent, and a later successful read replaces an earlier selection |
| Distributor.HandleQRScanAsWritten | frontend/src/components/DistributorDashboard.tsx:176-182 | the handler selects only when the scanned record has a truthy productId property |
| Distributor.QRScanNeverSelects | frontend/src/components/DistributorDashboard.tsx:176-182 | the scanner's display record has no productId property, so the handler as written never selects anything |
| Distributor.HandleQRScan | frontend/src/components/DistributorDashboard.tsx:176-182 | the corrected handler selects exactly when the record's id is truthy, and selects that id |
| Distributor.ApplyScan | frontend/src/components/DistributorDashboard.tsx:176-182 | ignoring leaves the board unchanged; a selection switches to the farmer-details tab, keeps the lookup results and selects the product read |
| Distributor.ScanSelectsGenerated | frontend/src/components/DistributorDashboard.tsx:176-182 | the corrected handler selects the id of any scanned generated payload with a non-zero id |
| Distributor.FormatAddress | frontend/src/components/DistributorDashboard.tsx:184-187 | an empty address stays empty; otherwise the first six characters, "..." and the last four |
| Distributor.FormatAddressShape | frontend/src/components/DistributorDashboard.tsx:184-187 | an address of at least ten characters shortens to 13 characters keeping its head and tail, and two such addresses shorten alike exactly when heads and tails agree |
| Distributor.FormatDate | frontend/src/components/DistributorDashboard.tsx:189-192 | a missing, zero or NaN timestamp gives "N/A"; otherwise the locale date of the timestamp in milliseconds |
| Distributor.DateNAIff | frontend/src/components/DistributorDashboard.tsx:189-192 | for a locale formatter that never prints "N/A", the placeholder appears exactly for falsy timestamps |
| Distributor.GetUserRole | frontend/src/components/DistributorDashboard.tsx:194-202 | roles 0 to 3 get their names; everything else is "Unknown" |
| Distributor.UserRoleAgreesExceptAdmin | frontend/src/components/DistributorDashboard.tsx:194-202 | the dashboard's role label agrees with the configuration's for every role except Admin |
| Farmer.GetCropVariants | frontend/src/components/FarmerDashboard.tsx:125-150 | a listed crop gets its own variants; any other gets the default four |
| Farmer.VariantsIff | frontend/src/components/FarmerDashboard.tsx:125-150 | the default list is returned exactly for unlisted crops, and every listed crop gets the variants listed for it |
| Farmer.CropNamesDistinct | frontend/src/components/FarmerDashboard.tsx:126-147 | the crop names in the table are pairwise distinct |
| Farmer.GITaggedIff | frontend/src/components/FarmerDashboard.tsx:467 | a crop is GI tagged exactly when one of the four places occurs in its name |
| Farmer.TableGICrops | frontend/src/components/FarmerDashboard.tsx:518 | the four named GI crops of the table are tagged |
| Farmer.SelectCrop | frontend/src/components/FarmerDashboard.tsx:508-510 | choosing a crop sets it, clears the variety and leaves the rest of the form alone |
| Farmer.HandleSubmit | frontend/src/components/FarmerDashboard.tsx:321-342 | registration proceeds exactly when connected, registered, scored and filled in; otherwise the first failing guard's message is shown, in source order |
| Farmer.SubmitGuardOrder | frontend/src/components/FarmerDashboard.tsx:324-342 | a later guard's message implies that every earlier guard passed |
| Farmer.CropChangeNeedsVariety | frontend/src/components/FarmerDashboard.tsx:321-342 | after a crop change the form never registers, and once the earlier guards pass it is refused with the fields message; the new crop's variants are offered, and choosing a variety (with a quantity) lets it through |
| Farmer.SubmitShowsKey | frontend/src/components/FarmerDashboard.tsx:334-337 | with translation tables shaped like src/contexts/TranslationContext.tsx's (flat, dotted keys), a missing score shows the untranslated message key |
| Farmer.RunQualityCheck | frontend/src/components/FarmerDashboard.tsx:157-217 | no images gives the upload message, and only then; a model score is the prediction rounded to a percentage; a mock score lies in 80 to 99 |
| Farmer.ScoreRange | frontend/src/components/FarmerDashboard.tsx:169-205 | a prediction in [0, 1] gives a percentage in [0, 100] that passes the submit guard from 0.005 up; a mock score always passes it |
| Farmer.Round | frontend/src/components/FarmerDashboard.tsx:174 | the rounded value is the integer within half a unit of the argument, halves going up |
| Farmer.MockScore | frontend/src/components/FarmerDashboard.tsx:191 | the mock score lies between 80 and 99 |
| Translation.T | src/contexts/TranslationContext.tsx:419-441 | the result is the key itself or a string some language's table reaches along the key's segments |
| Translation.TFindsString | src/contexts/TranslationContext.tsx:419-441 | a path that reaches a string in the current language gives that string |
| Translation.TStopsAtSection | src/contexts/TranslationContext.tsx:440 | a key that reaches a whole section in the current language gives the key back, without trying English |
| Translation.TFallsBackToEnglish | src/contexts/TranslationContext.tsx:426-436 | a path that misses in the current language is answered as English would answer it |
| Translation.JoinSplit | src/contexts/TranslationContext.tsx:420 | splitting a key on '.' loses nothing: joining the segments gives the key back |
| Translation.FlatTablesNeverResolve | src/contexts/TranslationContext.tsx:419-441 | with flat tables of dotted keys, as in the source, `t` returns its argument for every key and language |
| Translation.MessageKeyShown | src/contexts/TranslationContext.tsx:131-141 | asking for an English message gives back its key |
| Translation.TFlat | src/contexts/TranslationContext.tsx:419-441 | the corrected lookup finds the whole key in the current table, falling back to English and then to the key |
| Translation.TFlatFindsMessages | src/contexts/TranslationContext.tsx:131-141 | the corrected lookup gives the text of every English message |
| Translation.LoadSavedLanguage | src/contexts/TranslationContext.tsx:406-412 | only 'en', 'hi' or 'or' replaces the current language; anything else, or nothing saved, keeps it |
| Translation.SaveThenLoad | src/contexts/TranslationContext.tsx:414-417 | a saved language loads back as itself, and distinct languages save distinct codes |
| Auth.Login | frontend/src/contexts/AuthContext.tsx:47-73 | sign-in succeeds exactly when some credential of the chosen role matches both fields; success stores the user under that role and name; failure leaves the user and storage as they were; loading ends |
| Auth.Find | frontend/src/contexts/AuthContext.tsx:54 | the first credential that matches both username and password, and none when no credential does |
| Auth.UserOf | frontend/src/contexts/AuthContext.tsx:57-63 | the user id is the role, "_" and the username; the other fields are copied from the credential |
| Auth.Restore | frontend/src/contexts/AuthContext.tsx:38-45 | a stored user is restored, and loading ends |
| Auth.Logout | frontend/src/contexts/AuthContext.tsx:75-78 | the user and its stored copy are removed |
| Auth.EachAccountSignsIn | frontend/src/contexts/AuthContext.tsx:21-73 | every listed account signs in under its own role as itself |
| Auth.UsernamesDistinct | frontend/src/contexts/AuthContext.tsx:21-32 | all six usernames are distinct |
| Auth.CredentialsScopedToRole | frontend/src/contexts/AuthContext.tsx:21-73 | an account of one role cannot sign in under the other |
| Auth.SessionPersists | frontend/src/contexts/AuthContext.tsx:38-78 | a signed-in user survives a reload, and so does a logout |
| Price.GetUplift | backend/ml/predict_price.py:217-222 | a lower-cased name containing "cashew" gets 6.0; any other gets 1.0 |
| Price.UpliftNeverFive | backend/ml/predict_price.py:28-32 | the 5.0 entries of the table are never returned; even "cashewnuts" gets 6.0 |
| Price.GetUpliftSpecific | backend/ml/predict_price.py:217-222 | the corrected uplift uses the longest table key contained in the name, and 1.0 when none is |
| Price.SpecificUplift | backend/ml/predict_price.py:28-32 | with the corrected rule, "cashewnut" names get 5.0, other "cashew" names get 6.0 and the rest get 1.0 |
| Price.LongestMatch | backend/ml/predict_price.py:217-222 | the chosen entry is contained in the name and no contained key is longer; none exactly when no key is contained |
| Price.GetPricingRecommendations | backend/ml/predict_price.py:225-259 | a note on the price band is added exactly when the price is below 20 or above 100, and it is the matching note; at most two notes |
| Price.RecommendationFollowsTable | backend/ml/predict_price.py:233-251 | the first category whose term occurs in the name sets the margin, the markup and the first note; with no category the defaults 15 and 30 stand |
| Price.FirstCategory | backend/ml/predict_price.py:236-251 | the chosen category has a matching term and no earlier one does |
| Price.InferUnitScale | backend/ml/predict_price.py:181-185 | the scale is 1.0 for no rows or a median below 300, and 0.01 otherwise |
| Price.UnitScaleAntitone | backend/ml/predict_price.py:181-185 | a larger median never gets a larger scale, and no rows gets the largest |
| Price.WeatherAdjustment | backend/ml/predict_price.py:280-284 | over 50 mm gives -5%, over 10 mm gives -2%, and a dry or missing reading gives none, each if and only if |
| Price.LowerHint | backend/ml/predict_price.py:276 | the lower hint is the largest of 0.1, 90% of the uplifted p25 and 70% of the uplifted median |
| Price.UpperHint | backend/ml/predict_price.py:277 | the upper hint is the largest of 150% of the uplifted median, 130% of the uplifted p75 and the lower hint plus 10 |
| Price.Anchor | backend/ml/predict_price.py:286-291 | the anchor is the uplifted median, raised by 3% when the recent median beats the all-time one |
| Price.Clamp | backend/ml/predict_price.py:294 | the result lies within the hints and equals the argument when it already does |
| Price.Uplift | backend/ml/predict_price.py:269-274 | median and quartiles are multiplied by the uplift, missing or zero quartiles falling back to the median |
| Price.EstimatePrice | backend/ml/predict_price.py:262-312 | the lower hint is `LowerHint` of the uplifted p25 and median, and the upper hint is `UpperHint` of the uplifted p75 and median over that lower hint; so the hints are at least 0.1 and 10 apart; the price is the weather-nudged anchor clamped into them; the quantity is the one asked for |
| Price.AnchorRule | backend/ml/predict_price.py:286-294 | the anchor is raised by 3% exactly when the recent median is higher; the price is the nudged anchor when that lies within the hints, and the nearer hint otherwise |
| Price.RainNeverRaisesPrice | backend/ml/predict_price.py:279-294 | with non-negative prices, more rain never gives a higher price |
| Price.PriceTiers | backend/ml/predict_price.py:355-357 | farmer-to-distributor is the base raised by the profit margin, distributor-to-retailer that raised by the distributor markup, and retailer-to-customer that raised by the retailer markup |
| Price.TiersNonDecreasing | backend/ml/predict_price.py:336-357 | with non-negative inputs the tiers never decrease; with the default percentages the customer pays 1.716 times the base price |
| Quality.Classify | backend/api/ml_utils.py:85-98 | the label is "good" exactly above 0.4; the confidence lies in [0, 1], is 0 exactly at the threshold and 1 exactly at 0.8 or above, or 0 or below |
| Quality.LabelOf | backend/api/ml_utils.py:88 | "good" if and only if the score exceeds 0.4 |
| Quality.Confidence | backend/api/ml_utils.py:91-92 | the confidence lies in [0, 1], is 0 exactly at the threshold and saturates exactly from 0.4 away |
| Quality.ConfidenceMonotone | backend/api/ml_utils.py:91-92 | a score further from the threshold is never less confident |
| Quality.ClassifyDeterminesScore | backend/api/ml_utils.py:88-92 | below full confidence, the label and confidence determine the score |
| Quality.MockPrediction | backend/api/ml_utils.py:104-115 | the mock score lies in [0.3, 0.8] and the confidence in [0.6, 0.9]; its own `> 0.4` test labels exactly as the model path's rule does, so it is good exactly when the draw puts the score above 0.4 |
| Quality.PredictQuality | backend/api/ml_utils.py:71-102 | a missing model or a failed run gives the mock prediction; a model's output is exactly its classification, whatever the random draws; either way the label follows the 0.4 threshold |
| JsonRoundTrip.ParseStringify | frontend/src/utils/qrCodeUtils.ts:93 | parsing the printed form of any value whose objects have distinct keys gives the value back |
| JsonRoundTrip.StringifyInjective | frontend/src/utils/qrCodeUtils.ts:70 | distinct values with distinct keys print differently |
| Utf8.DecodeEncode | frontend/src/utils/qrCodeUtils.ts:71 | decoding the UTF-8 bytes of a string gives the string back |
| Utf8.EncodeInjective | frontend/src/utils/qrCodeUtils.ts:71 | distinct strings have distinct UTF-8 bytes, so the signature hashes exactly the printed text |
| Utf8.EncodeChar | frontend/src/utils/qrCodeUtils.ts:71 | each character becomes one to four bytes: one exactly below U+0080, a valid lead byte, then continuation bytes |

## Left out

- Rendering, toasts, loading flags other than the auth one, async timing, and the one-second delay of `login` are not modelled. Neither are the camera and voice buttons.
- The Keccak-256 function is a parameter. Its internals are not modelled.
- Only the digest's hex shape and its first ten characters are used.
- QrCodec.GenerateParseRoundTrip, QrCodec.GenerateQRCodeData: JavaScript numbers are doubles, and the model uses unbounded integers. The product id, quality score and timestamp are already doubles when a code is generated. Every finite double prints in a form that `JSON.parse` reads back exactly, so the program accepts its own codes of any size, as the model does. The model differs in two ways. First, it also admits integers that no double can hold. Second, `${productId}` and `JSON.stringify` print magnitudes of 1e21 and more in exponent form, where the model prints every digit. That changes the verification URL and the signed text, but not whether the code is accepted.
- QrCodec.Classify, QrCodec.ParseQRCodeData, QrCodec.ParseAcceptsIff, QrCodec.WrongSignatureRejected, QrCodec.AnyDataAccepted: a scanned text's numbers are read as exact integers, whereas `JSON.parse` reads them as doubles and `verifyQRCodeData` prints them again before comparing signatures. These members describe the program only for scanned data whose numbers are integers of magnitude below 2^53. Three kinds of scanned text are judged differently:
  - An integer of magnitude 2^53 or more that no double holds is rounded by the program: data `9007199254740993` is re-printed as `9007199254740992`. The program rejects the envelope signed over the written digits, which the model accepts, and accepts the one signed over the rounded value, which the model refuses.
  - An integer of 1e21 or more is re-printed as `1e+21` and so on, so a signature over the written digits is rejected by the program and accepted by the model.
  - Fractions and exponents are accepted by `JSON.parse`, but the model's parser refuses them.
- JSON numbers are integers in this model. Fractions and exponents are rejected by the parser model, because the codec's integer fields are all the model needs.
- A `\u` escape for a lone surrogate is rejected, because a Dafny character is a Unicode scalar value.
- QrCodec.ParseQRCodeData, QrCodec.ParseAcceptsIff, QrCodec.AnyDataAccepted: object key order follows insertion. JavaScript prints integer-like keys first, in ascending order. The codec's own keys are not integer-like, so generated codes are unaffected. A scanned text whose `data` holds such a key out of that order is another matter: `verifyQRCodeData` re-prints `data` in JavaScript's order before hashing. An example is `{"b":1,"1":2}` signed over that same text, which is re-printed as `{"1":2,"b":1}`. The digest then differs and the program rejects the text, while the model accepts it.
- Distributor.FormatAddress: the model's `slice` and `length` count Unicode scalar values. JavaScript counts UTF-16 code units, so an address with a character above U+FFFF is cut at different places, and JavaScript may split a surrogate pair. A wallet address is ASCII hex, where the two agree.
- Property lookups read own keys only; the prototype chain is not modelled.
- Dates are parameters: `toLocaleDateString`, `toLocaleString` and `toISOString` are functions the caller supplies. Only their valid-time guard is modelled.
- QrCodec.IsQRCodeExpired: a non-integer timestamp goes through the caller-supplied `Number` conversion, and its result is not characterised beyond the null-data case.
- ConsumerScanner.ExtractProductId: `parseInt` loses precision above 2^53. The model returns the exact digit value.
- ConsumerScanner.FreshnessScore: computed on reals, not IEEE doubles.
- The random blockchain hash of the consumer record and the random hashes and QR strings of the quality check are parameters or omitted. Nothing is stated about their form.
- `handleProductSelect` always sets the status history to the empty list. That is not modelled, since it carries no decision.
- Farmer.RunQualityCheck: the random hash and QR URL it stores are not modelled; only the score is. The percentage `Math.round(quality_score * 100)` is computed on exact reals, not doubles. At a .5 tie the two can differ by one: for a reported 0.145 the double product is 14.499999999999998 and JavaScript gives 14, where the model gives 15.
- The translation tables are not transcribed in full. The model keeps the English `message.*` entries and the fact that every table is flat with dotted keys.
- Lower-casing (`toLowerCase`, `lower()`) is ASCII-only in the model.
- Auth.Restore: the stored user is kept as a value. Its JSON serialisation, and a stored text that fails to parse, are not modelled.
- Price.EstimatePrice: `round(..., 2)` on the hints, the price and the total is not modelled; the figures are exact reals.
- The pandas statistics (`compute_trend_stats`) are inputs, and NaN medians are not modelled.
- Price.Anchor: when `perkg_median_all` is present but `None` and a recent median exists, Python raises a `TypeError` comparing with `None`. The model compares with 0 instead.
- Weather and geocoding HTTP calls, the CSV loading and the interactive prompts are left out.
- The total price of an estimate (`price_per_kg * kilograms`) is a plain product with no property of its own to state.
- Quality: image loading, preprocessing and the model itself are a parameter: the score the model output, or a failure.

## Findings

| source | as written | input that shows it | evidently intended | confidence | as-written member | corrected member |
|---|---|---|---|---|---|---|
| frontend/src/components/DistributorDashboard.tsx:176-182 | the QR-scan handler reads `productData.productId`, but the scanner hands it the display record of `formatProductDataForDisplay`, whose id is under `id` | any valid scanned payload, e.g. one generated for product 7 | select the scanned product by its `id` | high, not executed | Distributor.QRScanNeverSelects | Distributor.ScanSelectsGenerated |
| backend/ml/predict_price.py:217-222 | the uplift loop returns the first table key contained in the name, and "cashew" comes first and occurs in the other two keys | crop name "cashewnuts" gets 6.0 | the 5.0 entries apply to names containing them | medium, not executed | Price.UpliftNeverFive | Price.SpecificUplift |
| src/contexts/TranslationContext.tsx:419-441 | `t` splits the key on '.' and walks nested objects, but the tables are flat objects whose keys contain the dot | `t('message.upload_images_first')` returns "message.upload_images_first" | look the whole key up in the flat table | high, not executed | Translation.FlatTablesNeverResolve | Translation.TFlatFindsMessages |

=== FILE: assoc.dfy ===
/** String-keyed tables written as JavaScript object literals or Python
    dictionaries: a list of entries where a repeated key keeps the value
    written last. */
module Assoc {
  import opened Wrappers

  /** `obj[k]` for own keys of an object literal: the last entry with key
      `k`, or `None` when no entry has that key. */
  function Lookup<V>(entries: seq<(string, V)>, k: string): (r: Option<V>)
    ensures r.None? <==> forall i :: 0 <= i < |entries| ==> entries[i].0 != k
    ensures r.Some? ==> exists i :: (0 <= i < |entries| && entries[i] == (k, r.value)
                                     && forall j :: i < j < |entries| ==> entries[j].0 != k)
    decreases |entries|
  {
    if entries == [] then None
    else if entries[|entries| - 1].0 == k then Some(entries[|entries| - 1].1)
    else Lookup(entries[..|entries| - 1], k)
  }

  /** With distinct keys, the entry at position `i` is what its key finds. */
  lemma {:induction false} LookupDistinct<V>(entries: seq<(string, V)>, i: int)
    requires 0 <= i < |entries|
    requires forall a, b :: 0 <= a < b < |entries| ==> entries[a].0 != entries[b].0
    ensures Lookup(entries, entries[i].0) == Some(entries[i].1)
    decreases |entries|
  {
    if i < |entries| - 1 {
      LookupDistinct(entries[..|entries| - 1], i);
    }
  }
}

=== FILE: auth.dfy ===
/** The demo sign-in of frontend/src/contexts/AuthContext.tsx: two fixed
    credential lists, one per role, a `login` that takes the first entry of
    the chosen role's list matching both username and password, and a
    `logout`. Local storage is part of the state; the simulated one-second
    delay is not modelled. */
module Auth {
  import opened Wrappers

  datatype Role = Distributor | Retailer

  function RoleName(r: Role): (s: string)
    ensures s != ""
  {
    match r
    case Distributor => "distributor"
    case Retailer => "retailer"
  }

  datatype Credential = Credential(username: string, password: string, name: string, company: string)

  /** `DUMMY_CREDENTIALS`. */
  const Distributors: seq<Credential> := [
    Credential("dist1", "dist123", "John Smith", "Fresh Logistics Co."),
    Credential("dist2", "dist456", "Sarah Johnson", "Agri Supply Chain"),
    Credential("dist3", "dist789", "Mike Wilson", "Farm to Market Ltd.")]

  const Retailers: seq<Credential> := [
    Credential("retail1", "retail123", "Emma Davis", "Green Grocer"),
    Credential("retail2", "retail456", "David Brown", "Fresh Market"),
    Credential("retail3", "retail789", "Lisa Garcia", "Organic Store")]

  function CredentialsFor(role: Role): seq<Credential> {
    match role
    case Distributor => Distributors
    case Retailer => Retailers
  }

  datatype User = User(id: string, username: string, role: Role, name: string, company: string)

  /** The session: the signed-in user, the loading flag and the copy kept
      under 'agritrace_user' in local storage. */
  datatype Session = Session(user: Option<User>, isLoading: bool, stored: Option<User>)

  /** Before the mount effect has run. */
  const InitialSession := Session(None, true, None)

  predicate Matches(c: Credential, username: string, password: string) {
    c.username == username && c.password == password
  }

  /** `credentials.find(...)`: the first entry matching both fields. */
  function Find(cs: seq<Credential>, username: string, password: string): (r: Option<Credential>)
    ensures r.None? <==> forall i :: 0 <= i < |cs| ==> !Matches(cs[i], username, password)
    ensures r.Some? ==> exists i :: (0 <= i < |cs| && cs[i] == r.value && Matches(cs[i], username, password)
                                     && forall j :: 0 <= j < i ==> !Matches(cs[j], username, password))
  {
    if cs == [] then None
    else if Matches(cs[0], username, password) then Some(cs[0])
    else match Find(cs[1..], username, password)
      case None => None
      case Some(c) =>
        assert forall j :: 1 <= j < |cs| ==> cs[j] == cs[1..][j - 1];
        Some(c)
  }

  /** The user record built from a matched entry. */
  function UserOf(role: Role, c: Credential): (u: User)
    ensures u.id == RoleName(role) + "_" + c.username
    ensures u.username == c.username && u.role == role && u.name == c.name && u.company == c.company
  {
    User(RoleName(role) + "_" + c.username, c.username, role, c.name, c.company)
  }

  /** The mount effect: a stored user is restored, and loading ends. */
  function Restore(s: Session): (r: Session)
    ensures r.isLoading == false && r.stored == s.stored
    ensures r.user == (if s.stored.Some? then s.stored else s.user)
  {
    Session(if s.stored.Some? then s.stored else s.user, false, s.stored)
  }

  /** `login(username, password, role)`: the new session and the returned
      boolean. */
  function Login(s: Session, username: string, password: string, role: Role): (r: (Session, bool))
    ensures r.1 <==> exists i :: 0 <= i < |CredentialsFor(role)| && Matches(CredentialsFor(role)[i], username, password)
    ensures !r.0.isLoading
    ensures !r.1 ==> r.0.user == s.user && r.0.stored == s.stored
    ensures r.1 ==>
      (r.0.user.Some? && r.0.stored == r.0.user
       && r.0.user.value.role == role && r.0.user.value.username == username)
  {
    match Find(CredentialsFor(role), username, password)
    case Some(c) =>
      var u := UserOf(role, c);
      (Session(Some(u), false, Some(u)), true)
    case None => (s.(isLoading := false), false)
  }

  /** `logout`: the user and its stored copy are gone. */
  function Logout(s: Session): (r: Session)
    ensures r.user.None? && r.stored.None? && r.isLoading == s.isLoading
  {
    Session(None, s.isLoading, None)
  }

  /** Every listed account signs in under its own role, as itself. */
  lemma EachAccountSignsIn(s: Session, role: Role, i: int)
    requires 0 <= i < |CredentialsFor(role)|
    ensures var c := CredentialsFor(role)[i];
      Login(s, c.username, c.password, role) == (Session(Some(UserOf(role, c)), false, Some(UserOf(role, c))), true)
  {
    var cs := CredentialsFor(role);
    var c := cs[i];
    var f := Find(cs, c.username, c.password);
    assert f.Some?;
    var k :| 0 <= k < |cs| && cs[k] == f.value && Matches(cs[k], c.username, c.password)
      && forall j :: 0 <= j < k ==> !Matches(cs[j], c.username, c.password);
    UsernamesDistinct();
    assert k == i;
  }

  lemma UsernamesDistinct()
    ensures forall a, b :: 0 <= a < b < |Distributors| ==> Distributors[a].username != Distributors[b].username
    ensures forall a, b :: 0 <= a < b < |Retailers| ==> Retailers[a].username != Retailers[b].username
    ensures forall a, b :: 0 <= a < |Distributors| && 0 <= b < |Retailers| ==> Distributors[a].username != Retailers[b].username
  {
    forall a, b | 0 <= a < b < |Distributors| ensures Distributors[a].username != Distributors[b].username {
      assert Distributors[a].username[4] != Distributors[b].username[4];
    }
    forall a, b | 0 <= a < b < |Retailers| ensures Retailers[a].username != Retailers[b].username {
      assert Retailers[a].username[6] != Retailers[b].username[6];
    }
    forall a, b | 0 <= a < |Distributors| && 0 <= b < |Retailers| ensures Distributors[a].username != Retailers[b].username {
      assert Distributors[a].username[0] != Retailers[b].username[0];
    }
  }

  /** Accounts are scoped to their role: a distributor's username and
      password fail as a retailer, and the other way round. */
  lemma CredentialsScopedToRole(s: Session, i: int)
    ensures 0 <= i < |Distributors| ==> !Login(s, Distributors[i].username, Distributors[i].password, Retailer).1
    ensures 0 <= i < |Retailers| ==> !Login(s, Retailers[i].username, Retailers[i].password, Distributor).1
  {
    UsernamesDistinct();
  }

  /** A signed-in user survives a reload through local storage, and a
      logout survives it too. */
  lemma SessionPersists(s: Session, username: string, password: string, role: Role)
    ensures var (after, ok) := Login(s, username, password, role);
      ok ==> Restore(Session(None, true, after.stored)).user == after.user
    ensures Restore(Session(None, true, Logout(s).stored)).user.None?
  {
  }
}

=== FILE: consumer_scanner.dfy ===
/** `handleScan` of the consumer product scanner
    (frontend/src/components/ConsumerScanner.tsx): the product id is the
    first run of decimal digits in the input; with a wallet connection the
    product and its status history are read from the chain and mapped to
    the page's record, otherwise (or when a read throws) a fixed sample
    record is shown. Contract reads, the clock, `Math.random` and the ISO
    date printer are parameters. */
module ConsumerScanner {
  import opened Wrappers
  import opened Strings
  import Web3Config

  // ------------------------------------------------------ product-id text

  /** Position of the first decimal digit, if any. */
  function FirstDigit(s: string): (r: Option<nat>)
    ensures r.None? <==> forall i :: 0 <= i < |s| ==> !IsDigit(s[i])
    ensures r.Some? ==> r.value < |s| && IsDigit(s[r.value])
    ensures r.Some? ==> forall i :: 0 <= i < r.value ==> !IsDigit(s[i])
    decreases |s|
  {
    if s == [] then None
    else if IsDigit(s[0]) then Some(0)
    else match FirstDigit(s[1..])
      case None => None
      case Some(i) => Some(i + 1)
  }

  /** The maximal run of digits that starts at `i`. */
  function RunAt(s: string, i: nat): (r: string)
    requires i <= |s|
    ensures AllDigits(r) && |r| <= |s| - i && r == s[i..i + |r|]
    ensures i + |r| == |s| || !IsDigit(s[i + |r|])
  {
    var n := DigitRun(s[i..]);
    assert s[i..][..n] == s[i..i + n];
    s[i..i + n]
  }

  /** `parseInt(s.match(/(\d+)/)[1])`: the value of the first maximal run of
      digits, or `None` when the match fails. */
  function ExtractProductId(s: string): (r: Option<nat>)
    ensures r.None? <==> forall i :: 0 <= i < |s| ==> !IsDigit(s[i])
    ensures r.Some? ==> FirstDigit(s).Some? && r.value == DigitsValue(RunAt(s, FirstDigit(s).value))
  {
    match FirstDigit(s)
    case None => None
    case Some(i) => Some(DigitsValue(RunAt(s, i)))
  }

  /** A digit-free prefix is skipped by the search for the first digit. */
  lemma {:induction false} FirstDigitAfter(prefix: string, t: string)
    requires forall i :: 0 <= i < |prefix| ==> !IsDigit(prefix[i])
    requires t != [] && IsDigit(t[0])
    ensures FirstDigit(prefix + t) == Some(|prefix|)
    decreases |prefix|
  {
    if prefix != [] {
      assert (prefix + t)[1..] == prefix[1..] + t;
      FirstDigitAfter(prefix[1..], t);
    } else {
      assert prefix + t == t;
    }
  }

  /** A number written after any digit-free prefix is read back, whatever
      non-digit text follows it. */
  lemma ExtractWrittenId(prefix: string, n: nat, suffix: string)
    requires forall i :: 0 <= i < |prefix| ==> !IsDigit(prefix[i])
    requires suffix == [] || !IsDigit(suffix[0])
    ensures ExtractProductId(prefix + NatToString(n) + suffix) == Some(n)
  {
    var d := NatToString(n);
    var s := prefix + d + suffix;
    assert s == prefix + (d + suffix);
    assert (d + suffix)[0] == d[0];
    FirstDigitAfter(prefix, d + suffix);
    RunOfWritten(prefix, d, suffix);
    NatToStringRoundTrip(n);
  }

  lemma RunOfWritten(prefix: string, d: string, suffix: string)
    requires AllDigits(d)
    requires suffix == [] || !IsDigit(suffix[0])
    ensures RunAt(prefix + d + suffix, |prefix|) == d
  {
    var s := prefix + d + suffix;
    assert s[|prefix|..] == d + suffix;
    DigitRunOf(d, suffix);
  }

  // ------------------------------------------------------------- records

  /** The tuple `getProduct` returns, as far as the page reads it. */
  datatype ChainProduct = ChainProduct(
    cropType: string, variety: string, farmerName: string, farmerLocation: string,
    harvestDate: int, qualityScore: int, isVerified: bool)

  datatype StatusStep = StatusStep(status: int, location: string, timestamp: int)

  datatype Farmer = Farmer(name: string, location: string, certification: string)
  datatype Harvest = Harvest(date: string, quality: int)
  datatype JourneyEntry = JourneyEntry(stage: string, location: string, timestamp: string, status: string)
  datatype Chain = ChainInfo(verified: bool, hash: string)
  datatype Freshness = Freshness(score: real, prediction: string)

  /** `ProduceData`. */
  datatype ProduceData = ProduceData(
    id: string, cropType: string, variety: string, farmer: Farmer, harvest: Harvest,
    journey: seq<JourneyEntry>, blockchain: Chain, freshness: Freshness, insights: seq<string>)

  /** `mockProduceData`. */
  const MockProduceData := ProduceData(
    "AGT-TOM-2024-001234", "Tomatoes", "Cherry Roma",
    Farmer("Maria Rodriguez", "Salinas Valley, CA", "USDA Organic Certified"),
    Harvest("2024-01-15", 96),
    [JourneyEntry("Harvest", "Rodriguez Organic Farm, CA", "2024-01-15T08:00:00Z", "completed"),
     JourneyEntry("Processing", "Central Valley Packaging, CA", "2024-01-15T14:30:00Z", "completed"),
     JourneyEntry("Distribution", "FreshCo Logistics Hub, CA", "2024-01-16T06:00:00Z", "completed"),
     JourneyEntry("Retail", "GreenMart Store #142", "2024-01-17T09:15:00Z", "completed")],
    ChainInfo(true, "0xb7d8f9a2c3e4"),
    Freshness(89.0, "Best consumed within 3 days"),
    ["This produce is fresher than 85% of current stock",
     "Grown using sustainable farming practices",
     "No anomalies detected during transport",
     "Premium organic quality grade"])

  const ChainInsights: seq<string> := [
    "This product is verified on blockchain",
    "Complete supply chain transparency",
    "Immutable quality records",
    "Direct from farmer to consumer"]

  // ---------------------------------------------------------- the handler

  /** `Date` holds times within 8.64e15 ms of the epoch; `toISOString` of any
      other time throws a RangeError (section 21.4.1.31 of ECMA-262). */
  const MaxTimeMs := 8640000000000000

  predicate ValidTime(ms: int) {
    -MaxTimeMs <= ms <= MaxTimeMs
  }

  /** `s.split('T')[0]`: the text before the first 'T'. */
  function BeforeT(s: string): (r: string)
    ensures |r| <= |s| && r == s[..|r|]
    ensures forall i :: 0 <= i < |r| ==> r[i] != 'T'
    ensures |r| < |s| ==> s[|r|] == 'T'
  {
    if s == [] || s[0] == 'T' then ""
    else [s[0]] + BeforeT(s[1..])
  }

  /** The page's surroundings: wallet state, the two contract reads (`None`
      when the call throws), the clock, the random hex digits of the fake
      hash, and `toISOString` on valid times. */
  datatype Env = Env(
    connected: bool,
    getProduct: nat -> Option<ChainProduct>,
    getStatusHistory: nat -> Option<seq<StatusStep>>,
    now: int, randomHex: string, iso: int -> string)

  datatype Outcome = Blank | BadFormat | Shown(data: ProduceData)

  const MsPerDay := 86400000.0

  /** `Math.max(60, 100 - (Date.now() - harvestDate * 1000) / day * 2)`:
      two points lost per day since harvest, never below 60. */
  function FreshnessScore(now: int, harvestDate: int): (r: real)
    ensures r >= 60.0
    ensures r == 60.0 || r == 100.0 - (now - harvestDate * 1000) as real / MsPerDay * 2.0
  {
    var raw := 100.0 - (now - harvestDate * 1000) as real / MsPerDay * 2.0;
    if raw > 60.0 then raw else 60.0
  }

  /** `statusHistory.map(...)`: both arms of the status conditional are
      "completed". */
  function Journey(history: seq<StatusStep>, iso: int -> string): (r: seq<JourneyEntry>)
    requires forall i :: 0 <= i < |history| ==> ValidTime(history[i].timestamp * 1000)
    ensures |r| == |history|
    ensures forall i :: 0 <= i < |r| ==>
      (r[i].status == "completed"
       && r[i].stage == Web3Config.GetStatusText(history[i].status)
       && r[i].location == history[i].location
       && r[i].timestamp == iso(history[i].timestamp * 1000))
  {
    seq(|history|, i requires 0 <= i < |history| =>
      JourneyEntry(Web3Config.GetStatusText(history[i].status), history[i].location,
        iso(history[i].timestamp * 1000), if i == |history| - 1 then "completed" else "completed"))
  }

  /** The record built from chain data, or `None` when building it throws
      (an out-of-range date). */
  function FromChain(productId: nat, p: ChainProduct, history: seq<StatusStep>, env: Env): (r: Option<ProduceData>)
    ensures r.Some? <==>
      (ValidTime(p.harvestDate * 1000)
       && forall i :: 0 <= i < |history| ==> ValidTime(history[i].timestamp * 1000))
    ensures r.Some? ==>
      (r.value.id == "BLOCKCHAIN-" + IntToString(productId)
       && r.value.freshness.score >= 60.0 && |r.value.journey| == |history|
       && r.value.farmer == Farmer(p.farmerName, p.farmerLocation, "Blockchain Verified")
       && r.value.blockchain.verified == p.isVerified)
  {
    if !ValidTime(p.harvestDate * 1000) then None
    else if !(forall i :: 0 <= i < |history| ==> ValidTime(history[i].timestamp * 1000)) then None
    else Some(ProduceData(
      "BLOCKCHAIN-" + IntToString(productId), p.cropType, p.variety,
      Farmer(p.farmerName, p.farmerLocation, "Blockchain Verified"),
      Harvest(BeforeT(env.iso(p.harvestDate * 1000)), p.qualityScore),
      Journey(history, env.iso),
      ChainInfo(p.isVerified, "0x" + env.randomHex),
      Freshness(FreshnessScore(env.now, p.harvestDate), "Best consumed within 3 days"),
      ChainInsights))
  }

  /** `handleScan` on the text `input`. */
  function HandleScan(input: string, env: Env): (r: Outcome)
    ensures IsBlank(input) <==> r == Blank
    ensures r == BadFormat <==> !IsBlank(input) && ExtractProductId(input).None?
    ensures !env.connected && r.Shown? ==> r.data == MockProduceData
    ensures r.Shown? ==> r.data.freshness.score >= 60.0
  {
    if IsBlank(input) then Blank
    else match ExtractProductId(input)
      case None => BadFormat
      case Some(id) =>
        if !env.connected then Shown(MockProduceData)
        else match (env.getProduct(id), env.getStatusHistory(id))
          case (Some(p), Some(h)) =>
            (match FromChain(id, p, h, env)
             case Some(d) => Shown(d)
             case None => Shown(MockProduceData))
          case _ => Shown(MockProduceData)
  }

  /** A failing contract read falls back to the sample record. */
  lemma ReadFailureShowsMock(input: string, env: Env, id: nat)
    requires !IsBlank(input) && ExtractProductId(input) == Some(id)
    requires env.getProduct(id).None? || env.getStatusHistory(id).None?
    ensures HandleScan(input, env) == Shown(MockProduceData)
  {
  }

  /** A harvest date or a history time out of the range of a JavaScript
      date makes `toISOString` throw while the record is built; the catch
      shows the sample record. */
  lemma BadDateShowsMock(input: string, env: Env, id: nat)
    requires !IsBlank(input) && ExtractProductId(input) == Some(id) && env.connected
    requires env.getProduct(id).Some? && env.getStatusHistory(id).Some?
    requires !ValidTime(env.getProduct(id).value.harvestDate * 1000)
      || exists i :: 0 <= i < |env.getStatusHistory(id).value|
           && !ValidTime(env.getStatusHistory(id).value[i].timestamp * 1000)
    ensures HandleScan(input, env) == Shown(MockProduceData)
  {
  }

  /** With both reads succeeding and dates in range, the chain record is
      shown: its journey has one "completed" entry per history step, in
      order, named by the step's status. */
  lemma ChainRecordShown(input: string, env: Env, id: nat)
    requires !IsBlank(input) && ExtractProductId(input) == Some(id) && env.connected
    requires env.getProduct(id).Some? && env.getStatusHistory(id).Some?
    requires ValidTime(env.getProduct(id).value.harvestDate * 1000)
    requires forall i :: 0 <= i < |env.getStatusHistory(id).value| ==>
      ValidTime(env.getStatusHistory(id).value[i].timestamp * 1000)
    ensures HandleScan(input, env).Shown?
    ensures var d := HandleScan(input, env).data; var h := env.getStatusHistory(id).value;
      d.id == "BLOCKCHAIN-" + IntToString(id) && |d.journey| == |h|
      && forall i :: 0 <= i < |h| ==>
           (d.journey[i].status == "completed"
            && d.journey[i].stage == Web3Config.GetStatusText(h[i].status))
  {
  }
}

=== FILE: distributor.dfy ===
/** The helpers of the distributor dashboard
    (frontend/src/components/DistributorDashboard.tsx): shipment colours,
    the farmer lookup with its guards and the dropping of products that fail
    to load, product selection from a QR scan, and the address, date and
    role formatters. Contract reads are parameters returning `None` when the
    call throws; the user and product records are type parameters because
    the page only passes them through. */
module Distributor {
  import opened Wrappers
  import opened Strings
  import opened Json
  import opened Js
  import opened QrCodec
  import Web3Config

  // ------------------------------------------------------------ shipments

  const ShipmentStatuses: seq<string> := ["Delivered", "In Transit", "Pending"]

  /** `getStatusColor`. */
  function GetStatusColor(status: string): (r: string)
    ensures status == "Delivered" ==> r == "bg-green-500"
    ensures status == "In Transit" ==> r == "bg-blue-500"
    ensures status == "Pending" ==> r == "bg-yellow-500"
    ensures status !in ShipmentStatuses ==> r == "bg-gray-500"
  {
    match status
    case "Delivered" => "bg-green-500"
    case "In Transit" => "bg-blue-500"
    case "Pending" => "bg-yellow-500"
    case _ => "bg-gray-500"
  }

  /** Gray marks exactly the statuses the switch does not list, and the three
      listed statuses get three different colours. */
  lemma StatusColorIff(status: string, other: string)
    ensures GetStatusColor(status) == "bg-gray-500" <==> status !in ShipmentStatuses
    ensures (status in ShipmentStatuses && other in ShipmentStatuses
             && GetStatusColor(status) == GetStatusColor(other)) ==> status == other
  {
  }

  // ------------------------------------------------------------ the board

  /** The dashboard state the handlers below write. `productStatusHistory`
      is left out: every write to it stores the empty list. */
  datatype Board<U, P> = Board(details: Option<U>, products: seq<P>, selected: Option<P>, tab: string)

  /** The contract as the page sees it: the wallet state and three reads,
      each `None` when the call throws. */
  datatype Contract<U, P> = Contract(
    connected: bool,
    getUser: string -> Option<U>,
    getProductsByFarmer: string -> Option<seq<nat>>,
    getProduct: nat -> Option<P>)

  datatype LookupOutcome = EmptyAddress | NotConnected | Loaded(count: nat) | LookupFailed

  /** `products.filter(Boolean)` after each failed read became `null`: the
      products that loaded, in their original order. */
  function Present<P>(xs: seq<Option<P>>): (r: seq<P>)
    ensures |r| <= |xs|
    ensures forall i :: 0 <= i < |r| ==> Some(r[i]) in xs
    ensures forall i :: 0 <= i < |xs| && xs[i].Some? ==> xs[i].value in r
  {
    if xs == [] then []
    else
      var rest := Present(xs[1..]);
      assert forall i :: 1 <= i < |xs| ==> xs[i] == xs[1..][i - 1];
      if xs[0].Some? then [xs[0].value] + rest else rest
  }

  /** Filtering distributes over concatenation, so the loaded products keep
      the order of their ids. */
  lemma {:induction false} PresentAppend<P>(a: seq<Option<P>>, b: seq<Option<P>>)
    ensures Present(a + b) == Present(a) + Present(b)
    decreases |a|
  {
    if a != [] {
      assert (a + b)[0] == a[0];
      assert (a + b)[1..] == a[1..] + b;
      PresentAppend(a[1..], b);
      if a[0].Some? {
        ConsAssoc(a[0].value, Present(a[1..]), Present(b));
      }
    } else {
      assert a + b == b;
    }
  }

  lemma ConsAssoc<P>(x: P, u: seq<P>, v: seq<P>)
    ensures [x] + (u + v) == ([x] + u) + v
  {
  }

  /** Every product read, in id order. */
  function ReadAll<P>(ids: seq<nat>, getProduct: nat -> Option<P>): (r: seq<Option<P>>)
    ensures |r| == |ids|
    ensures forall i :: 0 <= i < |ids| ==> r[i] == getProduct(ids[i])
  {
    seq(|ids|, i requires 0 <= i < |ids| => getProduct(ids[i]))
  }

  /** `lookupFarmer`: a blank address is refused before the wallet check, and
      neither refusal reads the contract. The reads use the address as typed,
      untrimmed. A failing user or id read clears both details and products. */
  function LookupFarmer<U, P>(b: Board<U, P>, address: string, c: Contract<U, P>): (r: (Board<U, P>, LookupOutcome))
    ensures IsBlank(address) <==> r.1 == EmptyAddress
    ensures r.1 == NotConnected <==> !IsBlank(address) && !c.connected
    ensures r.1.EmptyAddress? || r.1.NotConnected? ==> r.0 == b
    ensures r.1 == LookupFailed ==> r.0 == b.(details := None, products := [])
    ensures r.1.Loaded? ==>
      (r.0.details == c.getUser(address) && r.0.details.Some?
       && r.1.count == |r.0.products| && r.0.selected == b.selected && r.0.tab == b.tab)
    ensures !IsBlank(address) && c.connected ==>
      (r.1.Loaded? <==> c.getUser(address).Some? && c.getProductsByFarmer(address).Some?)
    ensures r.1.Loaded? ==> r.0.products == Present(ReadAll(c.getProductsByFarmer(address).value, c.getProduct))
  {
    if IsBlank(address) then (b, EmptyAddress)
    else if !c.connected then (b, NotConnected)
    else match (c.getUser(address), c.getProductsByFarmer(address))
      case (Some(u), Some(ids)) =>
        var loaded := Present(ReadAll(ids, c.getProduct));
        (b.(details := Some(u), products := loaded), Loaded(|loaded|))
      case _ => (b.(details := None, products := []), LookupFailed)
  }

  /** The refusals do not depend on the contract at all: they make no call. */
  lemma RefusalsReadNothing<U, P>(b: Board<U, P>, address: string, c: Contract<U, P>, d: Contract<U, P>)
    requires IsBlank(address) || !c.connected
    requires c.connected == d.connected
    ensures LookupFarmer(b, address, c) == LookupFarmer(b, address, d)
  {
  }

  /** After a successful lookup the list holds exactly the products that
      loaded, each one the read of some listed id, and no more of them than
      there are ids. */
  lemma LoadedProducts<U, P>(b: Board<U, P>, address: string, c: Contract<U, P>)
    requires LookupFarmer(b, address, c).1.Loaded?
    ensures var ids := c.getProductsByFarmer(address).value;
      var ps := LookupFarmer(b, address, c).0.products;
      |ps| <= |ids|
      && (forall k :: 0 <= k < |ps| ==> exists i :: 0 <= i < |ids| && c.getProduct(ids[i]) == Some(ps[k]))
      && (forall i :: 0 <= i < |ids| && c.getProduct(ids[i]).Some? ==> c.getProduct(ids[i]).value in ps)
  {
    var ids := c.getProductsByFarmer(address).value;
    var got := ReadAll(ids, c.getProduct);
    var ps := Present(got);
    forall k | 0 <= k < |ps| ensures exists i :: 0 <= i < |ids| && c.getProduct(ids[i]) == Some(ps[k]) {
      var i :| 0 <= i < |got| && got[i] == Some(ps[k]);
      assert c.getProduct(ids[i]) == Some(ps[k]);
    }
  }

  /** Loading a farmer's ids in two parts gives the two parts' products in
      the same order. */
  lemma LoadedInIdOrder<P>(ids: seq<nat>, more: seq<nat>, getProduct: nat -> Option<P>)
    ensures Present(ReadAll(ids + more, getProduct))
      == Present(ReadAll(ids, getProduct)) + Present(ReadAll(more, getProduct))
  {
    assert ReadAll(ids + more, getProduct) == ReadAll(ids, getProduct) + ReadAll(more, getProduct);
    PresentAppend(ReadAll(ids, getProduct), ReadAll(more, getProduct));
  }

  // ------------------------------------------------------- selecting a product

  /** `handleProductSelect` once its read settles: the read product becomes
      the selection; a failed read changes nothing. */
  function ProductSelect<U, P>(b: Board<U, P>, read: Option<P>): (r: Board<U, P>)
    ensures read.Some? ==> r == b.(selected := read)
    ensures read.None? ==> r == b
  {
    match read
    case Some(_) => b.(selected := read)
    case None => b
  }

  /** Selecting touches only the selection: the looked-up farmer, the loaded
      products and the tab stay as they were; repeating a selection changes
      nothing, and a later successful read replaces an earlier one. */
  lemma SelectKeepsLookup<U, P>(b: Board<U, P>, earlier: Option<P>, read: Option<P>)
    ensures var r := ProductSelect(b, read);
      r.details == b.details && r.products == b.products && r.tab == b.tab
    ensures ProductSelect(ProductSelect(b, read), read) == ProductSelect(b, read)
    ensures read.Some? ==> ProductSelect(ProductSelect(b, earlier), read) == ProductSelect(b, read)
  {
  }

  /** A property read on the object `formatProductDataForDisplay` returns;
      `None` is `undefined`. */
  function DisplayProp(d: Display, k: string): (r: Option<Json>)
    ensures k !in DisplayKeys ==> r.None?
    ensures k == "id" ==> r == d.id
    ensures k == "verified" ==> r == Some(JBool(d.verified))
  {
    match k
    case "id" => d.id
    case "crop" => Some(JStr(d.crop))
    case "farmer" => d.farmer
    case "location" => d.location
    case "harvestDate" => Some(JStr(d.harvestDate))
    case "quality" => Some(JStr(d.quality))
    case "description" => d.description
    case "blockchainHash" => d.blockchainHash
    case "verified" => Some(JBool(d.verified))
    case "scanTime" => Some(JStr(d.scanTime))
    case _ => None
  }

  datatype ScanAction = Ignore | Select(productId: Json)

  /** What a scan handler does with the scanned record: act when the record
      is present and its property `key` is truthy. */
  function ScanFor(productData: Option<Display>, key: string): (r: ScanAction)
    ensures r.Select? <==> productData.Some? && Truthy(DisplayProp(productData.value, key))
    ensures r.Select? ==> Some(r.productId) == DisplayProp(productData.value, key)
  {
    if productData.Some? && Truthy(DisplayProp(productData.value, key))
    then Select(DisplayProp(productData.value, key).value)
    else Ignore
  }

  /** `handleQRScan` as written: it reads `productData.productId`. */
  function HandleQRScanAsWritten(productData: Option<Display>): (r: ScanAction)
    ensures r.Select? ==> productData.Some? && Truthy(DisplayProp(productData.value, "productId"))
  {
    ScanFor(productData, "productId")
  }

  /** The scanner hands over a display record, which has `id` and no
      `productId`: the handler as written never selects anything. */
  lemma QRScanNeverSelects(productData: Option<Display>)
    ensures HandleQRScanAsWritten(productData) == Ignore
  {
    assert "productId" !in DisplayKeys;
  }

  /** `handleQRScan` reading the key the display record carries. */
  function HandleQRScan(productData: Option<Display>): (r: ScanAction)
    ensures r.Select? <==> productData.Some? && Truthy(productData.value.id)
    ensures r.Select? ==> Some(r.productId) == productData.value.id
  {
    ScanFor(productData, "id")
  }

  /** Applying a scan action: the tab switches to the farmer details and the
      selection follows the product read. */
  function ApplyScan<U, P>(b: Board<U, P>, a: ScanAction, read: Option<P>): (r: Board<U, P>)
    ensures a == Ignore ==> r == b
    ensures a.Select? ==> r.tab == "farmer-details" && r.details == b.details && r.products == b.products
    ensures a.Select? && read.Some? ==> r.selected == read
  {
    match a
    case Ignore => b
    case Select(_) => ProductSelect(b.(tab := "farmer-details"), read)
  }

  /** Scanning a freshly generated code with a non-zero product id selects
      that product. */
  lemma ScanSelectsGenerated(hash: Hasher, productId: int, input: ProductInput, now: int, fmt: Formatters)
    requires productId != 0
    ensures HandleQRScan(Some(FormatProductDataForDisplay(DataToJson(GenerateQRCodeData(hash, productId, input, now).data), fmt)))
      == Select(JInt(productId))
  {
    var shown := FormatProductDataForDisplay(DataToJson(GenerateQRCodeData(hash, productId, input, now).data), fmt);
    DisplayOfGenerated(hash, productId, input, now, fmt);
    SelectsById(shown, productId);
  }

  lemma SelectsById(shown: Display, productId: int)
    requires productId != 0 && shown.id == Some(JInt(productId))
    ensures HandleQRScan(Some(shown)) == Select(JInt(productId))
  {
  }

  // ---------------------------------------------------------- formatters

  /** `formatAddress`: the first six characters, "...", the last four, with
      `slice` clamping for short text. */
  function FormatAddress(address: string): (r: string)
    ensures address == "" ==> r == ""
    ensures address != "" ==> r == address[..Min(6, |address|)] + "..." + address[|address| - Min(4, |address|)..]
  {
    if address == "" then ""
    else JsSlice(address, 0, 6) + "..." + JsSlice(address, -4, |address|)
  }

  function Min(a: int, b: int): int {
    if a < b then a else b
  }

  /** A full 42-character account address shortens to 13 characters that
      keep its `0x` prefix; two addresses with different heads or tails stay
      apart. */
  lemma FormatAddressShape(a: string, b: string)
    requires |a| >= 10 && |b| >= 10
    ensures |FormatAddress(a)| == 13
    ensures FormatAddress(a)[..6] == a[..6] && FormatAddress(a)[9..] == a[|a| - 4..]
    ensures FormatAddress(a) == FormatAddress(b) <==> a[..6] == b[..6] && a[|a| - 4..] == b[|b| - 4..]
  {
    var fa := FormatAddress(a);
    var fb := FormatAddress(b);
    assert fa[..6] == a[..6] && fa[9..] == a[|a| - 4..];
    assert fb[..6] == b[..6] && fb[9..] == b[|b| - 4..];
    if a[..6] == b[..6] && a[|a| - 4..] == b[|b| - 4..] {
      assert fa == fb;
    }
  }

  /** `timestamp * 1000` on doubles. */
  function Millis(ts: Number): (r: Number)
    ensures ts.Finite? ==> r == Finite(ts.r * 1000.0)
  {
    match ts
    case Finite(x) => Finite(x * 1000.0)
    case _ => ts
  }

  /** `!timestamp`: `undefined`, `null`, 0 and NaN are falsy. */
  predicate FalsyNumber(ts: Option<Number>) {
    ts.None? || ts == Some(Finite(0.0)) || ts == Some(NaN)
  }

  /** `formatDate`; `toLocaleDateString` of the time is the parameter
      `localeDate`. */
  function FormatDate(ts: Option<Number>, localeDate: Number -> string): (r: string)
    ensures FalsyNumber(ts) ==> r == "N/A"
    ensures !FalsyNumber(ts) ==> r == localeDate(Millis(ts.value))
  {
    if FalsyNumber(ts) then "N/A" else localeDate(Millis(ts.value))
  }

  /** For a locale formatter that never prints "N/A", the placeholder marks
      exactly the falsy timestamps. */
  lemma DateNAIff(ts: Option<Number>, localeDate: Number -> string)
    requires forall n :: localeDate(n) != "N/A"
    ensures FormatDate(ts, localeDate) == "N/A" <==> FalsyNumber(ts)
  {
  }

  /** `getUserRole`. */
  function GetUserRole(role: int): (r: string)
    ensures 0 <= role < 4 ==> r == Web3Config.RoleNames[role]
    ensures !(0 <= role < 4) ==> r == "Unknown"
  {
    match role
    case 0 => "Farmer"
    case 1 => "Distributor"
    case 2 => "Retailer"
    case 3 => "Consumer"
    case _ => "Unknown"
  }

  /** The dashboard's role names agree with the shared table everywhere
      except for the administrator, whom the dashboard calls 'Unknown'. */
  lemma UserRoleAgreesExceptAdmin(role: int)
    ensures GetUserRole(role) == Web3Config.GetRoleText(role) <==> role != Web3Config.ADMIN
  {
  }
}

=== FILE: farmer.dfy ===
/** The rules of the farmer dashboard (frontend/src/components/FarmerDashboard.tsx):
    the crop-variant table, the GI-tag badge test, the guard chain in front
    of product registration, the variety reset on a crop change, and the
    quality check's score. The translation function `t`, `Math.random` and
    the prediction service are parameters. */
module Farmer {
  import opened Wrappers
  import opened Strings
  import opened Assoc
  import Translation

  // ------------------------------------------------------------- varieties

  const CropVariants: seq<(string, seq<string>)> := [
    ("Rice/Paddy", ["Basmati", "Non-Basmati", "Aromatic", "Short Grain", "Long Grain"]),
    ("Koraput Kalajeera Rice", ["Traditional", "Organic", "Premium Grade"]),
    ("Millets (Ragi)", ["Red Ragi", "White Ragi", "Brown Ragi"]),
    ("Millets (Bajra)", ["Pearl Millet", "Hybrid", "Traditional"]),
    ("Millets (Jowar)", ["Sweet Sorghum", "Grain Sorghum", "Forage Sorghum"]),
    ("Moong (Green Gram)", ["Green Moong", "Yellow Moong", "Black Moong"]),
    ("Tomato", ["Cherry", "Roma", "Beefsteak", "Plum", "Grape"]),
    ("Potato", ["Russet", "Red", "Yukon Gold", "Fingerling", "Sweet Potato"]),
    ("Brinjal (Eggplant)", ["Purple", "White", "Green", "Striped"]),
    ("Nayagarh Kanteimundi Brinjal", ["Traditional", "Organic", "Premium"]),
    ("Mango", ["Alphonso", "Dasheri", "Langra", "Chausa", "Totapuri"]),
    ("Banana", ["Cavendish", "Red Banana", "Plantain", "Lady Finger"]),
    ("Kandhamal Haladi (Turmeric)", ["Traditional", "Organic", "Premium Grade", "Powder"]),
    ("Ganjam Kewda Flower", ["Fresh", "Dried", "Premium Grade"]),
    ("Kewda Oil", ["Pure", "Concentrated", "Aromatic"]),
    ("Kewda Attar", ["Traditional", "Premium", "Concentrated"]),
    ("Cotton", ["BT Cotton", "Desi Cotton", "Hybrid"]),
    ("Sugarcane", ["Co 86032", "Co 8371", "Co 0238", "Traditional"]),
    ("Mustard", ["Yellow Mustard", "Brown Mustard", "Black Mustard"]),
    ("Sesame", ["White Sesame", "Black Sesame", "Brown Sesame"])]

  const DefaultVariants: seq<string> := ["Traditional", "Hybrid", "Organic", "Premium"]

  /** `variants[cropType] || [...]`: a listed crop gets its own list (an
      array is always truthy), any other crop the four generic ones. */
  function GetCropVariants(cropType: string): (r: seq<string>)
    ensures r != []
    ensures Lookup(CropVariants, cropType).Some? ==> r == Lookup(CropVariants, cropType).value
    ensures Lookup(CropVariants, cropType).None? ==> r == DefaultVariants
  {
    match Lookup(CropVariants, cropType)
    case Some(vs) => ListsNonEmpty(); vs
    case None => DefaultVariants
  }

  lemma ListsNonEmpty()
    ensures forall k :: 0 <= k < |CropVariants| ==> CropVariants[k].1 != []
  {
    forall k | 0 <= k < |CropVariants| ensures CropVariants[k].1 != [] {
      assert |CropVariants[k].1| >= 3;
    }
  }

  /** No listed crop's list is the generic one, so the generic list marks
      exactly the crops the table does not name; and each listed crop gets
      the list written next to it. */
  lemma VariantsIff(cropType: string, i: int)
    requires 0 <= i < |CropVariants|
    ensures GetCropVariants(cropType) == DefaultVariants <==> Lookup(CropVariants, cropType).None?
    ensures GetCropVariants(CropVariants[i].0) == CropVariants[i].1
  {
    ListsNotDefault();
    CropNamesDistinct();
    LookupDistinct(CropVariants, i);
  }

  lemma ListsNotDefault()
    ensures forall k :: 0 <= k < |CropVariants| ==> CropVariants[k].1 != DefaultVariants
  {
    forall k | 0 <= k < |CropVariants| ensures CropVariants[k].1 != DefaultVariants {
      assert |CropVariants[k].1| != 4 || CropVariants[k].1[0] != "Traditional" || CropVariants[k].1[1] != "Hybrid";
    }
  }

  lemma CropNamesDistinct()
    ensures forall a, b :: 0 <= a < b < |CropVariants| ==> CropVariants[a].0 != CropVariants[b].0
  {
    forall a, b | 0 <= a < b < |CropVariants| ensures CropVariants[a].0 != CropVariants[b].0 {
      var x, y := CropVariants[a].0, CropVariants[b].0;
      assert |x| != |y| || x[0] != y[0] || x[|x| - 2] != y[|y| - 2];
    }
  }

  // ---------------------------------------------------------------- GI tag

  /** The four place names that mark a GI-tagged crop. */
  const GIPlaces: seq<string> := ["Koraput", "Kandhamal", "Nayagarh", "Ganjam"]

  /** The badge test: the crop name contains one of the four place names. */
  predicate IsGITagged(cropType: string) {
    Contains(cropType, "Koraput") || Contains(cropType, "Kandhamal")
    || Contains(cropType, "Nayagarh") || Contains(cropType, "Ganjam")
  }

  /** A crop is tagged exactly when one of the places occurs in its name at
      some position. */
  lemma GITaggedIff(cropType: string)
    ensures IsGITagged(cropType) <==> exists k, i :: 0 <= k < |GIPlaces| && OccursAt(cropType, GIPlaces[k], i)
  {
    forall k | 0 <= k < |GIPlaces| ensures Contains(cropType, GIPlaces[k]) <==> exists i :: OccursAt(cropType, GIPlaces[k], i) {
      ContainsIff(cropType, GIPlaces[k]);
    }
    if Contains(cropType, "Koraput") {
      assert Contains(cropType, GIPlaces[0]);
    } else if Contains(cropType, "Kandhamal") {
      assert Contains(cropType, GIPlaces[1]);
    } else if Contains(cropType, "Nayagarh") {
      assert Contains(cropType, GIPlaces[2]);
    } else if Contains(cropType, "Ganjam") {
      assert Contains(cropType, GIPlaces[3]);
    }
  }

  /** The four GI crops of the variant table carry the badge. */
  lemma TableGICrops()
    ensures IsGITagged("Koraput Kalajeera Rice") && IsGITagged("Kandhamal Haladi (Turmeric)")
    ensures IsGITagged("Nayagarh Kanteimundi Brinjal") && IsGITagged("Ganjam Kewda Flower")
  {
    ContainsAt("Koraput Kalajeera Rice", "Koraput", 0);
    ContainsAt("Kandhamal Haladi (Turmeric)", "Kandhamal", 0);
    ContainsAt("Nayagarh Kanteimundi Brinjal", "Nayagarh", 0);
    ContainsAt("Ganjam Kewda Flower", "Ganjam", 0);
  }

  // -------------------------------------------------------------- the form

  datatype Form = Form(
    cropType: string, variety: string, quantity: string, unit: string,
    location: string, harvestDate: string, description: string)

  const InitialForm := Form("", "", "", "kg", "", "", "")

  /** Choosing a crop in the select: the variety is cleared, the rest kept. */
  function SelectCrop(f: Form, value: string): (r: Form)
    ensures r.cropType == value && r.variety == ""
    ensures r.(cropType := f.cropType, variety := f.variety) == f
  {
    f.(cropType := value, variety := "")
  }

  /** What the page knows when the form is submitted. `qualityScore` is
      `null` until a quality check has run. */
  datatype Page = Page(connected: bool, registered: bool, qualityScore: Option<int>, form: Form)

  datatype Submit = Refused(message: string) | Register(form: Form, qualityScore: int)

  const MsgConnect := "Please connect your wallet first"
  const MsgRegister := "Please register as a user on blockchain first"
  const KeyQualityFirst := "message.run_quality_check_first"
  const MsgFields := "Please fill in all required fields"

  /** `!qualityScore`: no score yet, or a score of 0. */
  predicate MissingScore(q: Option<int>) {
    q.None? || q == Some(0)
  }

  predicate FieldsFilled(f: Form) {
    f.cropType != "" && f.variety != "" && f.quantity != ""
  }

  /** `handleSubmit` up to the call of `registerProduct`: the four guards in
      their order; `t` translates the quality-check message. */
  function HandleSubmit(p: Page, t: string -> string): (r: Submit)
    ensures r.Register? <==> p.connected && p.registered && !MissingScore(p.qualityScore) && FieldsFilled(p.form)
    ensures r.Register? ==> r.form == p.form && Some(r.qualityScore) == p.qualityScore
    ensures !p.connected ==> r == Refused(MsgConnect)
    ensures p.connected && !p.registered ==> r == Refused(MsgRegister)
    ensures p.connected && p.registered && MissingScore(p.qualityScore) ==> r == Refused(t(KeyQualityFirst))
    ensures p.connected && p.registered && !MissingScore(p.qualityScore) && !FieldsFilled(p.form) ==> r == Refused(MsgFields)
  {
    if !p.connected then Refused(MsgConnect)
    else if !p.registered then Refused(MsgRegister)
    else if MissingScore(p.qualityScore) then Refused(t(KeyQualityFirst))
    else if !FieldsFilled(p.form) then Refused(MsgFields)
    else Register(p.form, p.qualityScore.value)
  }

  /** The guards run in order: a refusal names the first failing guard, so
      every refusal after the first implies the earlier guards passed. */
  lemma SubmitGuardOrder(p: Page, t: string -> string)
    ensures HandleSubmit(p, t) == Refused(MsgRegister) && MsgRegister != MsgConnect ==> p.connected
    ensures HandleSubmit(p, t) == Refused(MsgFields) && t(KeyQualityFirst) != MsgFields
      ==> p.connected && p.registered && !MissingScore(p.qualityScore)
  {
  }

  /** With the source's flat translation tables the quality-check refusal
      shows the message key itself. */
  lemma SubmitShowsKey(p: Page, tables: Translation.Tables, lang: Translation.Language)
    requires Translation.FlatDotted(tables(lang)) && Translation.FlatDotted(tables(Translation.En))
    requires p.connected && p.registered && MissingScore(p.qualityScore)
    ensures HandleSubmit(p, key => Translation.T(tables, lang, key)) == Refused(KeyQualityFirst)
  {
    Translation.FlatTablesNeverResolve(tables, lang, KeyQualityFirst);
  }

  /** After a crop change the form cannot be submitted until a variety is
      chosen again: once the earlier guards pass, the refusal is the fields
      message. The select now offers the new crop's variants, and choosing
      any non-empty one (with a quantity) lets the submission through. */
  lemma CropChangeNeedsVariety(p: Page, value: string, v: string, t: string -> string)
    ensures var q := p.(form := SelectCrop(p.form, value));
      !HandleSubmit(q, t).Register?
      && (p.connected && p.registered && !MissingScore(p.qualityScore) ==> HandleSubmit(q, t) == Refused(MsgFields))
    ensures GetCropVariants(SelectCrop(p.form, value).cropType) == GetCropVariants(value)
    ensures var q := p.(form := SelectCrop(p.form, value).(variety := v));
      (p.connected && p.registered && !MissingScore(p.qualityScore)
       && value != "" && v != "" && p.form.quantity != "") ==> HandleSubmit(q, t).Register?
  {
  }

  // --------------------------------------------------------- quality check

  /** `Math.round(x)`: the nearest integer, halves rounded up. */
  function Round(x: real): (r: int)
    ensures r as real - 0.5 <= x < r as real + 0.5
  {
    (x + 0.5).Floor
  }

  /** The mock score `Math.floor(Math.random() * 20) + 80` for a draw in
      `[0, 1)`. */
  function MockScore(random: real): (r: int)
    requires 0.0 <= random < 1.0
    ensures 80 <= r <= 99
  {
    (random * 20.0).Floor + 80
  }

  /** The prediction service as the page sees it: `None` when the call
      throws, otherwise the reported quality score. */
  datatype CheckOutcome = NoImages(message: string) | Scored(score: int, fromModel: bool)

  /** `runQualityCheck`: with no images it stops at once; with the service
      available its score in `[0, 1]` becomes a rounded percentage; when
      the service is unavailable (`apiAvailable` not yet known counts as
      unavailable) or the call throws, the mock score is used. */
  function RunQualityCheck(images: nat, apiAvailable: Option<bool>, prediction: Option<real>,
                           random: real, t: string -> string): (r: CheckOutcome)
    requires 0.0 <= random < 1.0
    ensures images == 0 <==> r == NoImages(t("message.upload_images_first"))
    ensures r.Scored? && r.fromModel ==>
      (apiAvailable == Some(true) && prediction.Some? && r.score == Round(prediction.value * 100.0))
    ensures r.Scored? && !r.fromModel ==> 80 <= r.score <= 99
  {
    if images == 0 then NoImages(t("message.upload_images_first"))
    else if apiAvailable == Some(true) && prediction.Some? then
      Scored(Round(prediction.value * 100.0), true)
    else Scored(MockScore(random), false)
  }

  /** A model score in `[0, 1]` becomes a percentage in `0..100`, and any
      score — model or mock — lets the submit guard pass unless the model
      reported below 0.5%. */
  lemma ScoreRange(q: real, images: nat, random: real, t: string -> string)
    requires 0.0 <= q <= 1.0 && 0.0 <= random < 1.0 && images > 0
    ensures 0 <= Round(q * 100.0) <= 100
    ensures var r := RunQualityCheck(images, Some(true), Some(q), random, t);
      r.Scored? && (q >= 0.005 ==> !MissingScore(Some(r.score)))
    ensures var r := RunQualityCheck(images, None, None, random, t);
      r.Scored? && !MissingScore(Some(r.score))
  {
  }
}

=== FILE: js.dfy ===
/** The JavaScript coercions the QR code and dashboard code leans on, applied
    to values that came out of `JSON.parse`: truthiness, the string a
    template literal substitutes, `Number(v)`, and property reads that throw
    on `null`/`undefined` (sections 7.1.2, 7.1.4, 7.1.17 and 13.3.2 of
    ECMA-262). `undefined` is `None`. */
module Js {
  import opened Wrappers
  import opened Strings
  import opened Json

  /** An IEEE double as far as this model needs one: a finite value (kept
      exact), NaN or an infinity. */
  datatype Number = Finite(r: real) | NaN | PosInf | NegInf

  /** `Boolean(v)`. */
  predicate Truthy(v: Option<Json>) {
    match v
    case None => false
    case Some(JNull) => false
    case Some(JBool(b)) => b
    case Some(JInt(i)) => i != 0
    case Some(JStr(s)) => s != ""
    case Some(_) => true
  }

  /** The text `${v}` substitutes. */
  function ToStr(v: Option<Json>): (r: string)
    ensures v.Some? && v.value.JStr? ==> r == v.value.s
    ensures v.Some? && v.value.JInt? ==> r == IntToString(v.value.i)
  {
    match v
    case None => "undefined"
    case Some(j) => ValueToStr(j)
  }

  /** `String(j)`. Arrays print through `join(",")`, which writes `null`
      elements as empty strings. */
  function ValueToStr(j: Json): (r: string)
    decreases j, 1
  {
    match j
    case JNull => "null"
    case JBool(b) => if b then "true" else "false"
    case JInt(i) => IntToString(i)
    case JStr(s) => s
    case JArr(items) => Join(items)
    case JObj(_) => "[object Object]"
  }

  function Join(items: seq<Json>): (r: string)
    decreases items, 0
  {
    if items == [] then ""
    else
      var head := if items[0].JNull? then "" else ValueToStr(items[0]);
      if |items| == 1 then head else head + "," + Join(items[1..])
  }

  /** `Number(v)`. The conversion of a string (StringToNumber, which trims
      white space and reads a numeric literal) is the parameter `strToNum`. */
  function ToNumber(v: Option<Json>, strToNum: string -> Number): (r: Number)
    ensures v == Some(JNull) ==> r == Finite(0.0)
    ensures v.Some? && v.value.JInt? ==> r == Finite(v.value.i as real)
    ensures v.None? || (v.Some? && v.value.JObj?) ==> r == NaN
  {
    match v
    case None => NaN
    case Some(JNull) => Finite(0.0)
    case Some(JBool(b)) => Finite(if b then 1.0 else 0.0)
    case Some(JInt(i)) => Finite(i as real)
    case Some(JStr(s)) => strToNum(s)
    case Some(JArr(items)) => strToNum(Join(items))
    case Some(JObj(_)) => NaN
  }

  /** A property read `v.k`: `null` and `undefined` throw a TypeError
      (`None`); other non-objects have none of the properties read here. */
  function Prop(v: Option<Json>, k: string): (r: Option<Option<Json>>)
    ensures r.None? <==> v.None? || v == Some(JNull)
    ensures v.Some? && v.value.JObj? ==> r == Some(Get(v.value.members, k))
  {
    match v
    case None => None
    case Some(JNull) => None
    case Some(j) => Some(Field(j, k))
  }

  /** `a - b` on doubles with `a` finite. */
  function Minus(a: real, b: Number): (r: Number)
    ensures b.Finite? <==> r.Finite?
  {
    match b
    case Finite(x) => Finite(a - x)
    case NaN => NaN
    case PosInf => NegInf
    case NegInf => PosInf
  }

  /** `a / d` for a positive finite divisor. */
  function Over(a: Number, d: real): (r: Number)
    requires d > 0.0
    ensures r.NaN? <==> a.NaN?
  {
    match a
    case Finite(x) => Finite(x / d)
    case _ => a
  }

  /** `a > b` for a finite `b`: false whenever NaN is involved. */
  predicate Greater(a: Number, b: real) {
    match a
    case Finite(x) => x > b
    case NaN => false
    case PosInf => true
    case NegInf => false
  }

  /** `Math.max(lo, x)` for a finite `lo`; NaN propagates. */
  function MaxWith(lo: real, x: Number): (r: Number)
    ensures x.NaN? <==> r.NaN?
    ensures r.Finite? ==> r.r >= lo
  {
    match x
    case Finite(y) => Finite(if y > lo then y else lo)
    case NaN => NaN
    case PosInf => PosInf
    case NegInf => Finite(lo)
  }
}

=== FILE: json.dfy ===
/** JSON text (RFC 8259) restricted to integer numbers, with objects kept as
    ORDERED member sequences: `JSON.stringify` prints members in insertion
    order, so two objects with the same members in a different order print,
    and therefore hash, differently. `Stringify` follows the algorithm of
    `JSON.stringify` with no indentation (section 25.5.2 of ECMA-262). */
module Json {
  import opened Wrappers
  import opened Strings

  datatype Json =
    | JNull
    | JBool(b: bool)
    | JInt(i: int)
    | JStr(s: string)
    | JArr(items: seq<Json>)
    | JObj(members: seq<Member>)

  datatype Member = Member(key: string, value: Json)

  /** Property lookup on an object's members; `None` is `undefined`. */
  function Get(ms: seq<Member>, k: string): (r: Option<Json>)
    ensures r.None? <==> forall i :: 0 <= i < |ms| ==> ms[i].key != k
    ensures r.Some? ==> exists i :: 0 <= i < |ms| && ms[i] == Member(k, r.value)
  {
    if ms == [] then None
    else if ms[0].key == k then Some(ms[0].value)
    else Get(ms[1..], k)
  }

  /** `v[k]` for an arbitrary JSON value: only objects have own properties
      among the keys this model looks up. */
  function Field(v: Json, k: string): Option<Json> {
    if v.JObj? then Get(v.members, k) else None
  }

  predicate DistinctKeys(ms: seq<Member>) {
    forall i, j :: 0 <= i < j < |ms| ==> ms[i].key != ms[j].key
  }

  /** Every object in the value has pairwise distinct keys, as every object
      that `JSON.parse` builds does. */
  predicate WellFormed(j: Json) {
    match j
    case JArr(items) => forall i :: 0 <= i < |items| ==> WellFormed(items[i])
    case JObj(ms) => DistinctKeys(ms) && forall i :: 0 <= i < |ms| ==> WellFormed(ms[i].value)
    case _ => true
  }

  /** In an object with distinct keys, the looked-up value is the one stored
      under that key. */
  lemma GetMember(ms: seq<Member>, i: int)
    requires DistinctKeys(ms) && 0 <= i < |ms|
    ensures Get(ms, ms[i].key) == Some(ms[i].value)
  {
    if i > 0 {
      GetMember(ms[1..], i - 1);
    }
  }

  // ---------------------------------------------------------------- printer

  function HexDigit(d: nat): (c: char)
    requires d < 16
  {
    if d < 10 then DigitChar(d) else ('a' as int + d - 10) as char
  }

  /** One character of a string literal, escaped as `JSON.stringify` does
      (QuoteJSONString): the short escapes, `\u00xx` with lower-case hex for
      the other control characters, everything else verbatim. */
  function EscapeChar(c: char): (r: string)
    ensures |r| >= 1
    ensures r[0] != '"'
    ensures |r| == 1 <==> r == [c]
  {
    if c == '"' then "\\\""
    else if c == '\\' then "\\\\"
    else if c as int == 0x08 then "\\b"
    else if c == '\t' then "\\t"
    else if c == '\n' then "\\n"
    else if c as int == 0x0C then "\\f"
    else if c == '\r' then "\\r"
    else if c as int < 0x20 then "\\u00" + [HexDigit(c as int / 16), HexDigit(c as int % 16)]
    else [c]
  }

  function EscapeString(s: string): string
    decreases |s|
  {
    if s == [] then "" else EscapeChar(s[0]) + EscapeString(s[1..])
  }

  function Quote(s: string): string {
    "\"" + EscapeString(s) + "\""
  }

  /** `JSON.stringify(j)`. */
  function Stringify(j: Json): (r: string)
    ensures |r| >= 1
    decreases j
  {
    match j
    case JNull => "null"
    case JBool(b) => if b then "true" else "false"
    case JInt(i) => IntToString(i)
    case JStr(s) => Quote(s)
    case JArr(items) => "[" + StringifyItems(items) + "]"
    case JObj(ms) => "{" + StringifyMembers(ms) + "}"
  }

  function StringifyItems(items: seq<Json>): string
    decreases items
  {
    if items == [] then ""
    else if |items| == 1 then Stringify(items[0])
    else Stringify(items[0]) + "," + StringifyItems(items[1..])
  }

  function StringifyMember(m: Member): string
    decreases m
  {
    Quote(m.key) + ":" + Stringify(m.value)
  }

  function StringifyMembers(ms: seq<Member>): string
    decreases ms
  {
    if ms == [] then ""
    else if |ms| == 1 then StringifyMember(ms[0])
    else StringifyMember(ms[0]) + "," + StringifyMembers(ms[1..])
  }
}

=== FILE: json_parse.dfy ===
/** A recursive-descent reader for the JSON subset of module Json, following
    `JSON.parse` (section 25.5.1 of ECMA-262 and the grammar of RFC 8259):
    insignificant white space around tokens, the escapes of section 7 of
    RFC 8259, and duplicate keys merged the way `JSON.parse` merges them (the
    later value wins, the member keeps the position of its first occurrence).
    Every function here is total: malformed text yields `None`. */
module JsonParse {
  import opened Wrappers
  import opened Strings
  import opened Json

  /** The four white-space characters RFC 8259 allows between tokens. */
  predicate IsWs(c: char) {
    c == ' ' || c == '\t' || c == '\n' || c == '\r'
  }

  function SkipWs(s: string): (r: string)
    ensures |r| <= |s|
    ensures r == [] || !IsWs(r[0])
    decreases |s|
  {
    if s != [] && IsWs(s[0]) then SkipWs(s[1..]) else s
  }

  function HexValue(c: char): (r: Option<nat>)
    ensures r.Some? ==> r.value < 16
  {
    if '0' <= c <= '9' then Some(c as int - '0' as int)
    else if 'a' <= c <= 'f' then Some(c as int - 'a' as int + 10)
    else if 'A' <= c <= 'F' then Some(c as int - 'A' as int + 10)
    else None
  }

  /** The value of four hexadecimal digits. */
  function Hex4(s: string): (r: Option<nat>)
    requires |s| == 4
    ensures r.Some? ==> r.value < 0x10000
  {
    match (HexValue(s[0]), HexValue(s[1]), HexValue(s[2]), HexValue(s[3]))
    case (Some(a), Some(b), Some(c), Some(d)) => Some(((a * 16 + b) * 16 + c) * 16 + d)
    case _ => None
  }

  /** The character an escape sequence at the head of `s` stands for, and
      the number of characters it occupies. A `\u` escape of a UTF-16 high
      surrogate must be followed by one of a low surrogate; the pair denotes
      one supplementary character. An unpaired surrogate has no `char`. */
  function Unescape(s: string): (r: Option<(char, nat)>)
    requires |s| >= 2 && s[0] == '\\'
    ensures r.Some? ==> 2 <= r.value.1 <= |s|
  {
    var e := s[1];
    if e == '"' then Some(('"', 2))
    else if e == '\\' then Some(('\\', 2))
    else if e == '/' then Some(('/', 2))
    else if e == 'b' then Some((0x08 as char, 2))
    else if e == 'f' then Some((0x0C as char, 2))
    else if e == 'n' then Some(('\n', 2))
    else if e == 'r' then Some(('\r', 2))
    else if e == 't' then Some(('\t', 2))
    else if e == 'u' && |s| >= 6 then
      match Hex4(s[2..6])
      case None => None
      case Some(u) =>
        if 0xD800 <= u < 0xDC00 then
          if |s| >= 12 && s[6] == '\\' && s[7] == 'u' then
            match Hex4(s[8..12])
            case None => None
            case Some(lo) =>
              if 0xDC00 <= lo < 0xE000
              then Some(((0x10000 + (u - 0xD800) * 0x400 + (lo - 0xDC00)) as char, 12))
              else None
          else None
        else if 0xDC00 <= u < 0xE000 then None
        else Some((u as char, 6))
    else None
  }

  /** The body of a string literal after its opening quote: the decoded
      characters are appended to `acc`, and the text after the closing
      quote is returned with them. Raw control characters are refused. */
  function ParseString(s: string, acc: string): (r: Option<(string, string)>)
    ensures r.Some? ==> |r.value.1| < |s|
    decreases |s|
  {
    if s == [] then None
    else if s[0] == '"' then Some((acc, s[1..]))
    else if s[0] == '\\' then
      if |s| < 2 then None
      else match Unescape(s)
        case None => None
        case Some((c, n)) => ParseString(s[n..], acc + [c])
    else if s[0] as int < 0x20 then None
    else ParseString(s[1..], acc + [s[0]])
  }

  /** An integer literal: optional minus, digits without a superfluous
      leading zero. A fraction or exponent has no value in this model's
      number domain and is refused. */
  function ParseNumber(s: string): (r: Option<(Json, string)>)
    requires s != [] && (s[0] == '-' || IsDigit(s[0]))
    ensures r.Some? ==> |r.value.1| < |s|
  {
    var neg := s[0] == '-';
    var t := if neg then s[1..] else s;
    var n := DigitRun(t);
    if n == 0 then None
    else if n > 1 && t[0] == '0' then None
    else if n < |t| && (t[n] == '.' || t[n] == 'e' || t[n] == 'E') then None
    else
      var v: int := DigitsValue(t[..n]);
      Some((JInt(if neg then -v else v), t[n..]))
  }

  function ParseLiteral(t: string, word: string, v: Json): (r: Option<(Json, string)>)
    requires |word| >= 1
    ensures r.Some? ==> |r.value.1| < |t|
  {
    if |t| >= |word| && t[..|word|] == word then Some((v, t[|word|..])) else None
  }

  /** Sets property `k` as `JSON.parse` does: overwrite in place when the key
      is already present, append otherwise. */
  function SetMember(ms: seq<Member>, k: string, v: Json): (r: seq<Member>)
    ensures (forall i :: 0 <= i < |ms| ==> ms[i].key != k) ==> r == ms + [Member(k, v)]
    ensures Get(r, k) == Some(v)
  {
    if ms == [] then [Member(k, v)]
    else if ms[0].key == k then [Member(k, v)] + ms[1..]
    else [ms[0]] + SetMember(ms[1..], k, v)
  }

  /** One JSON value after optional white space; returns the value and the
      unread text. */
  function ParseValue(s: string): (r: Option<(Json, string)>)
    ensures r.Some? ==> |r.value.1| < |s|
    decreases |s|, 0
  {
    var t := SkipWs(s);
    if t == [] then None
    else if t[0] == 'n' then ParseLiteral(t, "null", JNull)
    else if t[0] == 't' then ParseLiteral(t, "true", JBool(true))
    else if t[0] == 'f' then ParseLiteral(t, "false", JBool(false))
    else if t[0] == '"' then
      match ParseString(t[1..], "")
      case None => None
      case Some((str, rest)) => Some((JStr(str), rest))
    else if t[0] == '-' || IsDigit(t[0]) then ParseNumber(t)
    else if t[0] == '[' then
      var u := SkipWs(t[1..]);
      if u != [] && u[0] == ']' then Some((JArr([]), u[1..]))
      else ParseElements(u, [])
    else if t[0] == '{' then
      var u := SkipWs(t[1..]);
      if u != [] && u[0] == '}' then Some((JObj([]), u[1..]))
      else ParseMembers(u, [])
    else None
  }

  /** Array elements after '[' (and after each ','), up to the closing ']'. */
  function ParseElements(s: string, acc: seq<Json>): (r: Option<(Json, string)>)
    ensures r.Some? ==> |r.value.1| < |s|
    decreases |s|, 1
  {
    match ParseValue(s)
    case None => None
    case Some((v, rest)) =>
      var t := SkipWs(rest);
      if t == [] then None
      else if t[0] == ',' then ParseElements(t[1..], acc + [v])
      else if t[0] == ']' then Some((JArr(acc + [v]), t[1..]))
      else None
  }

  /** Object members after '{' (and after each ','), up to the closing '}'. */
  function ParseMembers(s: string, acc: seq<Member>): (r: Option<(Json, string)>)
    ensures r.Some? ==> |r.value.1| < |s|
    decreases |s|, 1
  {
    var t := SkipWs(s);
    if t == [] || t[0] != '"' then None
    else match ParseString(t[1..], "")
      case None => None
      case Some((k, r1)) =>
        var r2 := SkipWs(r1);
        if r2 == [] || r2[0] != ':' then None
        else match ParseValue(r2[1..])
          case None => None
          case Some((v, r3)) =>
            var acc' := SetMember(acc, k, v);
            var r4 := SkipWs(r3);
            if r4 == [] then None
            else if r4[0] == ',' then ParseMembers(r4[1..], acc')
            else if r4[0] == '}' then Some((JObj(acc'), r4[1..]))
            else None
  }

  /** `JSON.parse(text)`: one value, surrounded only by white space.
      `None` stands for the SyntaxError it throws. */
  function Parse(text: string): Option<Json> {
    match ParseValue(text)
    case None => None
    case Some((v, rest)) => if SkipWs(rest) == [] then Some(v) else None
  }
}

=== FILE: json_roundtrip.dfy ===
/** The printer and the reader are inverse: reading what `Stringify` printed
    gives back the same value, for every value whose objects have distinct
    keys (the values `JSON.parse` can produce). */
module JsonRoundTrip {
  import opened Wrappers
  import opened Strings
  import opened Json
  import opened JsonParse

  /** What may follow a value inside printed text. */
  predicate Delimited(rest: string) {
    rest == [] || rest[0] == ',' || rest[0] == ']' || rest[0] == '}'
  }

  lemma HexDigitValue(d: nat)
    requires d < 16
    ensures HexValue(HexDigit(d)) == Some(d)
  {
  }

  /** One escaped character reads back as that character. */
  lemma EscapeCharReads(c: char, tail: string, acc: string)
    ensures ParseString(EscapeChar(c) + tail, acc) == ParseString(tail, acc + [c])
  {
    var s := EscapeChar(c) + tail;
    if c as int < 0x20 && c != '\t' && c != '\n' && c != '\r' && c as int != 0x08 && c as int != 0x0C {
      var hi, lo := c as int / 16, c as int % 16;
      HexDigitValue(hi);
      HexDigitValue(lo);
      assert s[2..6] == ['0', '0', HexDigit(hi), HexDigit(lo)];
      assert Hex4(s[2..6]) == Some(c as int);
      assert Unescape(s) == Some((c, 6));
      assert s[6..] == tail;
    } else if |EscapeChar(c)| == 2 {
      assert s[2..] == tail;
    } else {
      assert s[1..] == tail;
    }
  }

  /** An escaped string reads back, whatever text follows it. */
  lemma {:induction false} EscapeStringReads(s: string, tail: string, acc: string)
    ensures ParseString(EscapeString(s) + tail, acc) == ParseString(tail, acc + s)
    decreases |s|
  {
    if s == [] {
      assert EscapeString(s) + tail == tail;
      assert acc + s == acc;
    } else {
      var t := EscapeString(s[1..]) + tail;
      EscapedCons(s, tail);
      EscapeCharReads(s[0], t, acc);
      EscapeStringReads(s[1..], tail, acc + [s[0]]);
      ConsSplit(acc, s);
    }
  }

  lemma EscapedCons(s: string, tail: string)
    requires s != []
    ensures EscapeString(s) + tail == EscapeChar(s[0]) + (EscapeString(s[1..]) + tail)
  {
  }

  /** A quoted string reads back up to its closing quote. */
  lemma QuoteReads(k: string, rest: string)
    ensures ParseString((Quote(k) + rest)[1..], "") == Some((k, rest))
  {
    assert (Quote(k) + rest)[1..] == EscapeString(k) + ("\"" + rest);
    EscapeStringReads(k, "\"" + rest, "");
    assert ("\"" + rest)[1..] == rest;
    assert "" + k == k;
  }

  lemma NatReads(n: nat, rest: string)
    requires Delimited(rest)
    ensures ParseNumber(NatToString(n) + rest) == Some((JInt(n), rest))
  {
    var d := NatToString(n);
    var s := d + rest;
    DigitRunOf(d, rest);
    assert s[..|d|] == d;
    assert s[|d|..] == rest;
    assert s[0] == d[0];
    NatToStringRoundTrip(n);
  }

  lemma NegReads(n: nat, rest: string)
    requires n > 0 && Delimited(rest)
    ensures ParseNumber("-" + NatToString(n) + rest) == Some((JInt(0 - n), rest))
  {
    var d := NatToString(n);
    var s := "-" + d + rest;
    assert s[1..] == d + rest;
    DigitRunOf(d, rest);
    assert (d + rest)[..|d|] == d;
    assert (d + rest)[|d|..] == rest;
    NatToStringRoundTrip(n);
  }

  lemma IntReads(i: int, rest: string)
    requires Delimited(rest)
    ensures ParseNumber(IntToString(i) + rest) == Some((JInt(i), rest))
  {
    if i < 0 {
      NegReads(-i, rest);
    } else {
      NatReads(i, rest);
    }
  }

  /** The first character of printed text announces its kind. */
  lemma StringifyHead(j: Json)
    ensures !IsWs(Stringify(j)[0]) && Stringify(j)[0] != ']'
    ensures j.JInt? ==> Stringify(j)[0] == '-' || IsDigit(Stringify(j)[0])
    ensures j.JStr? ==> Stringify(j)[0] == '"'
    ensures j.JArr? ==> Stringify(j)[0] == '['
    ensures j.JObj? ==> Stringify(j)[0] == '{'
  {
  }

  /** Every value reads back from its printed text, whatever delimiter
      follows it. */
  lemma {:induction false} ValueReads(j: Json, rest: string)
    requires WellFormed(j) && Delimited(rest)
    ensures ParseValue(Stringify(j) + rest) == Some((j, rest))
    decreases j, 2
  {
    match j
    case JNull => LiteralReads("null", JNull, rest);
    case JBool(b) =>
      if b { LiteralReads("true", j, rest); } else { LiteralReads("false", j, rest); }
    case JInt(i) => IntValueReads(i, rest);
    case JStr(str) => StrValueReads(str, rest);
    case JArr(items) =>
      if items == [] {
        EmptyReads(j, rest);
      } else {
        ArrayReads(items, rest);
      }
    case JObj(ms) =>
      if ms == [] {
        EmptyReads(j, rest);
      } else {
        ObjectReads(ms, rest);
      }
  }

  lemma LiteralReads(word: string, v: Json, rest: string)
    requires (word == "null" && v == JNull) || (word == "true" && v == JBool(true))
          || (word == "false" && v == JBool(false))
    requires Delimited(rest)
    ensures Stringify(v) == word
    ensures ParseValue(word + rest) == Some((v, rest))
  {
    var s := word + rest;
    assert SkipWs(s) == s;
    assert s[..|word|] == word && s[|word|..] == rest;
  }

  lemma IntValueReads(i: int, rest: string)
    requires Delimited(rest)
    ensures ParseValue(Stringify(JInt(i)) + rest) == Some((JInt(i), rest))
  {
    var s := IntToString(i) + rest;
    assert s[0] == IntToString(i)[0];
    assert SkipWs(s) == s;
    IntReads(i, rest);
  }

  lemma StrValueReads(str: string, rest: string)
    requires Delimited(rest)
    ensures ParseValue(Stringify(JStr(str)) + rest) == Some((JStr(str), rest))
  {
    var s := Quote(str) + rest;
    assert s[0] == '"';
    assert SkipWs(s) == s;
    QuoteReads(str, rest);
  }

  lemma EmptyReads(j: Json, rest: string)
    requires j == JArr([]) || j == JObj([])
    requires Delimited(rest)
    ensures ParseValue(Stringify(j) + rest) == Some((j, rest))
  {
    var s := Stringify(j) + rest;
    assert SkipWs(s) == s;
    var close := if j.JArr? then ']' else '}';
    assert s[1..] == [close] + rest;
    assert SkipWs(s[1..]) == s[1..];
    assert s[1..][1..] == rest;
  }

  lemma ArrayReads(items: seq<Json>, rest: string)
    requires items != []
    requires forall i :: 0 <= i < |items| ==> WellFormed(items[i])
    requires Delimited(rest)
    ensures ParseValue(Stringify(JArr(items)) + rest) == Some((JArr(items), rest))
    decreases items, 2
  {
    ArrayDispatch(items, rest);
    ElementsRead(items, [], rest);
    EmptyPrefix(items);
  }

  lemma ObjectReads(ms: seq<Member>, rest: string)
    requires ms != [] && DistinctKeys(ms)
    requires forall i :: 0 <= i < |ms| ==> WellFormed(ms[i].value)
    requires Delimited(rest)
    ensures ParseValue(Stringify(JObj(ms)) + rest) == Some((JObj(ms), rest))
    decreases ms, 3
  {
    var w := StringifyMembers(ms) + "}" + rest;
    MembersHead(ms);
    ObjectDispatch(w);
    ObjectText(ms, rest);
    EmptyPrefix(ms);
    MembersRead(ms, [], rest);
  }

  lemma EmptyPrefix<T>(xs: seq<T>)
    ensures [] + xs == xs
  {
  }

  lemma ObjectText(ms: seq<Member>, rest: string)
    ensures Stringify(JObj(ms)) + rest == "{" + (StringifyMembers(ms) + "}" + rest)
  {
  }

  /** A printed non-empty array is read by `ParseElements`. */
  lemma ArrayDispatch(items: seq<Json>, rest: string)
    requires items != []
    ensures ParseValue(Stringify(JArr(items)) + rest) == ParseElements(StringifyItems(items) + "]" + rest, [])
  {
    var w := StringifyItems(items) + "]" + rest;
    ItemsHead(items);
    assert w[0] == StringifyItems(items)[0];
    ArrayText(items, rest);
    ArrayOpen(w);
  }

  lemma ArrayText(items: seq<Json>, rest: string)
    ensures Stringify(JArr(items)) + rest == "[" + (StringifyItems(items) + "]" + rest)
  {
  }

  /** Text after '[' that neither starts with white space nor closes the
      array is read by `ParseElements`. */
  lemma ArrayOpen(w: string)
    requires w != [] && !IsWs(w[0]) && w[0] != ']'
    ensures ParseValue("[" + w) == ParseElements(w, [])
  {
    var s := "[" + w;
    assert SkipWs(s) == s;
    assert s[1..] == w;
    assert SkipWs(w) == w;
  }

  /** An object whose members start with a quote is read by `ParseMembers`. */
  lemma ObjectDispatch(w: string)
    requires w != [] && w[0] == '"'
    ensures ParseValue("{" + w) == ParseMembers(w, [])
  {
    var s := "{" + w;
    NoLeadingWs(s);
    assert s[1..] == w;
    NoLeadingWs(w);
  }

  /** Text that does not start with white space is left as it is. */
  lemma NoLeadingWs(s: string)
    requires s == [] || !IsWs(s[0])
    ensures SkipWs(s) == s
  {
  }

  lemma MembersHead(ms: seq<Member>)
    requires ms != []
    ensures |StringifyMembers(ms)| >= 1 && StringifyMembers(ms)[0] == '"'
  {
  }

  lemma ItemsHead(items: seq<Json>)
    requires items != []
    ensures |StringifyItems(items)| >= 1
    ensures StringifyItems(items)[0] == Stringify(items[0])[0]
    ensures !IsWs(StringifyItems(items)[0]) && StringifyItems(items)[0] != ']'
  {
    StringifyHead(items[0]);
  }

  /** `ParseElements` after one element has been read. */
  lemma ElementsStep(s: string, acc: seq<Json>, v: Json, r: string)
    requires ParseValue(s) == Some((v, r))
    requires r != [] && (r[0] == ',' || r[0] == ']')
    ensures ParseElements(s, acc)
      == if r[0] == ',' then ParseElements(r[1..], acc + [v]) else Some((JArr(acc + [v]), r[1..]))
  {
    assert SkipWs(r) == r;
  }

  /** Printed array elements followed by ']' read back, appended to `acc`. */
  lemma {:induction false} ElementsRead(items: seq<Json>, acc: seq<Json>, rest: string)
    requires items != []
    requires forall i :: 0 <= i < |items| ==> WellFormed(items[i])
    requires Delimited(rest)
    ensures ParseElements(StringifyItems(items) + "]" + rest, acc) == Some((JArr(acc + items), rest))
    decreases items, 1
  {
    if |items| == 1 {
      LastElementRead(items[0], acc, rest);
      assert acc + [items[0]] == acc + items;
    } else {
      NextElementRead(items, acc, rest);
      ElementsRead(items[1..], acc + [items[0]], rest);
      ConsSplit(acc, items);
    }
  }

  lemma LastElementRead(x: Json, acc: seq<Json>, rest: string)
    requires WellFormed(x) && Delimited(rest)
    ensures ParseElements(StringifyItems([x]) + "]" + rest, acc) == Some((JArr(acc + [x]), rest))
    decreases x, 3
  {
    var r := "]" + rest;
    assert StringifyItems([x]) + "]" + rest == Stringify(x) + r;
    ValueReads(x, r);
    ElementsStep(Stringify(x) + r, acc, x, r);
    assert r[1..] == rest;
  }

  lemma NextElementRead(items: seq<Json>, acc: seq<Json>, rest: string)
    requires |items| >= 2
    requires WellFormed(items[0]) && Delimited(rest)
    ensures ParseElements(StringifyItems(items) + "]" + rest, acc)
      == ParseElements(StringifyItems(items[1..]) + "]" + rest, acc + [items[0]])
    decreases items, 0
  {
    var x := items[0];
    var r := "," + (StringifyItems(items[1..]) + "]" + rest);
    ItemsCons(items, rest);
    ValueReads(x, r);
    ElementsStep(Stringify(x) + r, acc, x, r);
  }

  lemma ItemsCons(items: seq<Json>, rest: string)
    requires |items| >= 2
    ensures StringifyItems(items) + "]" + rest
      == Stringify(items[0]) + ("," + (StringifyItems(items[1..]) + "]" + rest))
  {
    var a := Stringify(items[0]);
    var c := StringifyItems(items[1..]);
    assert StringifyItems(items) == a + "," + c;
    Assoc5(a, ",", c, "]", rest);
  }

  lemma Assoc5(a: string, b: string, c: string, d: string, e: string)
    ensures a + b + c + d + e == a + (b + (c + d + e))
  {
  }

  lemma AppendKeepsDistinct(acc: seq<Member>, ms: seq<Member>)
    requires ms != [] && DistinctKeys(acc + ms)
    ensures forall i :: 0 <= i < |acc| ==> acc[i].key != ms[0].key
    ensures DistinctKeys((acc + [ms[0]]) + ms[1..])
  {
    assert (acc + [ms[0]]) + ms[1..] == acc + ms;
    forall i | 0 <= i < |acc| ensures acc[i].key != ms[0].key {
      assert (acc + ms)[i] == acc[i] && (acc + ms)[|acc|] == ms[0];
    }
  }

  lemma ConsSplit<T>(acc: seq<T>, xs: seq<T>)
    requires xs != []
    ensures acc + [xs[0]] + xs[1..] == acc + xs
  {
    assert [xs[0]] + xs[1..] == xs;
  }

  /** Printed members followed by '}' read back, appended to `acc`. */
  lemma {:induction false} MembersRead(ms: seq<Member>, acc: seq<Member>, rest: string)
    requires ms != [] && DistinctKeys(acc + ms)
    requires forall i :: 0 <= i < |ms| ==> WellFormed(ms[i].value)
    requires Delimited(rest)
    ensures ParseMembers(StringifyMembers(ms) + "}" + rest, acc) == Some((JObj(acc + ms), rest))
    decreases ms, 2
  {
    if |ms| == 1 {
      SingleAppends(acc, ms);
      LastMembersRead(ms, acc, rest);
    } else {
      TailWellFormed(ms);
      AppendKeepsDistinct(acc, ms);
      MembersRead(ms[1..], acc + [ms[0]], rest);
      MembersStep(ms, acc, rest);
    }
  }

  lemma SingleAppends(acc: seq<Member>, ms: seq<Member>)
    requires |ms| == 1 && DistinctKeys(acc + ms)
    ensures SetMember(acc, ms[0].key, ms[0].value) == acc + ms
  {
    FreshKeyAppends(acc, ms);
    assert ms == [ms[0]];
  }

  lemma TailWellFormed(ms: seq<Member>)
    requires ms != [] && forall i :: 0 <= i < |ms| ==> WellFormed(ms[i].value)
    ensures forall i :: 0 <= i < |ms[1..]| ==> WellFormed(ms[1..][i].value)
  {
  }

  /** The first member read, the rest of the object reads as it did after
      that member. */
  lemma MembersStep(ms: seq<Member>, acc: seq<Member>, rest: string)
    requires |ms| >= 2 && WellFormed(ms[0].value) && Delimited(rest) && DistinctKeys(acc + ms)
    requires ParseMembers(StringifyMembers(ms[1..]) + "}" + rest, acc + [ms[0]])
      == Some((JObj(acc + [ms[0]] + ms[1..]), rest))
    ensures ParseMembers(StringifyMembers(ms) + "}" + rest, acc) == Some((JObj(acc + ms), rest))
    decreases ms, 1
  {
    var a := StringifyMembers(ms) + "}" + rest;
    var b := StringifyMembers(ms[1..]) + "}" + rest;
    NextMemberRead(ms, acc, rest);
    assert ParseMembers(a, acc) == ParseMembers(b, SetMember(acc, ms[0].key, ms[0].value));
    FreshKeyAppends(acc, ms);
    assert ParseMembers(a, acc) == Some((JObj(acc + [ms[0]] + ms[1..]), rest));
    ConsSplit(acc, ms);
  }

  lemma FreshKeyAppends(acc: seq<Member>, ms: seq<Member>)
    requires ms != [] && DistinctKeys(acc + ms)
    ensures SetMember(acc, ms[0].key, ms[0].value) == acc + [ms[0]]
  {
    AppendKeepsDistinct(acc, ms);
  }

  lemma LastMembersRead(ms: seq<Member>, acc: seq<Member>, rest: string)
    requires |ms| == 1 && WellFormed(ms[0].value) && Delimited(rest)
    requires SetMember(acc, ms[0].key, ms[0].value) == acc + ms
    ensures ParseMembers(StringifyMembers(ms) + "}" + rest, acc) == Some((JObj(acc + ms), rest))
    decreases ms, 0
  {
    assert ms == [ms[0]];
    LastMemberRead(ms[0], acc, rest);
  }

  lemma NextMemberRead(ms: seq<Member>, acc: seq<Member>, rest: string)
    requires |ms| >= 2
    requires WellFormed(ms[0].value) && Delimited(rest)
    ensures ParseMembers(StringifyMembers(ms) + "}" + rest, acc)
      == ParseMembers(StringifyMembers(ms[1..]) + "}" + rest, SetMember(acc, ms[0].key, ms[0].value))
    decreases ms, 0
  {
    var m := ms[0];
    MembersThenClose(ms, rest);
    MemberThenComma(m, acc, StringifyMembers(ms[1..]) + "}" + rest);
  }

  lemma MembersThenClose(ms: seq<Member>, rest: string)
    requires |ms| >= 2
    ensures StringifyMembers(ms) + "}" + rest
      == Quote(ms[0].key) + (":" + Stringify(ms[0].value) + ("," + (StringifyMembers(ms[1..]) + "}" + rest)))
  {
    MembersCons(ms, "}" + rest);
    assert StringifyMembers(ms) + "}" + rest == StringifyMembers(ms) + ("}" + rest);
    assert StringifyMembers(ms[1..]) + "}" + rest == StringifyMembers(ms[1..]) + ("}" + rest);
  }

  lemma MembersCons(ms: seq<Member>, tail: string)
    requires |ms| >= 2
    ensures StringifyMembers(ms) + tail
      == Quote(ms[0].key) + (":" + Stringify(ms[0].value) + ("," + (StringifyMembers(ms[1..]) + tail)))
  {
    var a := Quote(ms[0].key);
    var b := Stringify(ms[0].value);
    var c := StringifyMembers(ms[1..]);
    assert StringifyMembers(ms) == StringifyMember(ms[0]) + "," + c;
    assert StringifyMember(ms[0]) == a + ":" + b;
    Assoc6(a, ":", b, ",", c, tail);
  }

  lemma Assoc6(a: string, b: string, c: string, d: string, e: string, f: string)
    ensures a + b + c + d + e + f == a + (b + c + (d + (e + f)))
  {
  }

  lemma LastMemberRead(m: Member, acc: seq<Member>, rest: string)
    requires WellFormed(m.value) && Delimited(rest)
    ensures ParseMembers(StringifyMembers([m]) + "}" + rest, acc)
      == Some((JObj(SetMember(acc, m.key, m.value)), rest))
    decreases m, 2
  {
    assert StringifyMembers([m]) + "}" + rest == Quote(m.key) + (":" + Stringify(m.value) + ("}" + rest));
    MemberThenClose(m, acc, rest);
  }

  /** A printed member followed by ',' hands the rest to `ParseMembers`. */
  lemma MemberThenComma(m: Member, acc: seq<Member>, tail: string)
    requires WellFormed(m.value)
    ensures ParseMembers(Quote(m.key) + (":" + Stringify(m.value) + ("," + tail)), acc)
      == ParseMembers(tail, SetMember(acc, m.key, m.value))
    decreases m, 1
  {
    var r := "," + tail;
    MemberRead(m, acc, r);
    assert r[1..] == tail;
  }

  /** A printed member followed by '}' closes the object. */
  lemma MemberThenClose(m: Member, acc: seq<Member>, rest: string)
    requires WellFormed(m.value) && Delimited(rest)
    ensures ParseMembers(Quote(m.key) + (":" + Stringify(m.value) + ("}" + rest)), acc)
      == Some((JObj(SetMember(acc, m.key, m.value)), rest))
    decreases m, 1
  {
    var r := "}" + rest;
    MemberRead(m, acc, r);
    assert r[1..] == rest;
  }

  /** One printed member reads back: after it, `ParseMembers` continues
      exactly as it would on the text that follows, with the member set. */
  lemma MemberRead(m: Member, acc: seq<Member>, r: string)
    requires WellFormed(m.value) && Delimited(r) && r != []
    ensures ParseMembers(Quote(m.key) + (":" + Stringify(m.value) + r), acc)
      == (if r[0] == ',' then ParseMembers(r[1..], SetMember(acc, m.key, m.value))
          else if r[0] == '}' then Some((JObj(SetMember(acc, m.key, m.value)), r[1..]))
          else None)
    decreases m, 0
  {
    var r1 := ":" + Stringify(m.value) + r;
    var s := Quote(m.key) + r1;
    assert s[0] == '"';
    NoLeadingWs(s);
    QuoteReads(m.key, r1);
    NoLeadingWs(r1);
    assert r1[1..] == Stringify(m.value) + r;
    ValueReads(m.value, r);
    NoLeadingWs(r);
  }

  /** `JSON.parse(JSON.stringify(j))` is `j`. */
  lemma ParseStringify(j: Json)
    requires WellFormed(j)
    ensures Parse(Stringify(j)) == Some(j)
  {
    ValueReads(j, []);
    assert Stringify(j) + [] == Stringify(j);
  }

  /** Printing is injective on well-formed values. */
  lemma StringifyInjective(a: Json, b: Json)
    requires WellFormed(a) && WellFormed(b)
    requires Stringify(a) == Stringify(b)
    ensures a == b
  {
    ParseStringify(a);
    ParseStringify(b);
  }
}

=== FILE: price.dfy ===
/** The pricing rules of backend/ml/predict_price.py over exact reals: the
    per-crop uplift, the margin/markup recommendations, the unit-scale
    guess, the weather/anchor/clamp rule that turns dataset statistics into
    a price per kilogram, and the chain of price tiers. Python's
    `round(x, 2)` is not modelled, and `str.lower` is ASCII lower-casing.
    Dataset statistics (medians, quartiles) arrive as inputs; `None` is a
    missing value. */
module Price {
  import opened Wrappers
  import opened Strings

  // ---------------------------------------------------------------- uplift

  /** `COMMODITY_UPLIFT`, in its iteration order. */
  const CommodityUplift: seq<(string, real)> := [("cashew", 6.0), ("cashewnut", 5.0), ("cashewnuts", 5.0)]

  /** The loop of `get_uplift_for_crop`: the first key, in table order, that
      occurs in the lower-cased name. */
  function UpliftFrom(table: seq<(string, real)>, c: string): (r: real)
    ensures (forall i :: 0 <= i < |table| ==> !Contains(c, table[i].0)) ==> r == 1.0
    ensures table != [] && Contains(c, table[0].0) ==> r == table[0].1
    decreases |table|
  {
    if table == [] then 1.0
    else if Contains(c, table[0].0) then table[0].1
    else UpliftFrom(table[1..], c)
  }

  /** `get_uplift_for_crop` as written. */
  function GetUplift(cropName: string): (r: real)
    ensures Contains(Lower(cropName), "cashew") ==> r == 6.0
    ensures !Contains(Lower(cropName), "cashew") ==> r == 1.0
  {
    var c := Lower(cropName);
    if !Contains(c, "cashew") then
      CashewInEveryKey(c);
      UpliftFrom(CommodityUplift, c)
    else UpliftFrom(CommodityUplift, c)
  }

  /** Every key of the table starts with "cashew", so a name matching any
      key matches the first. */
  lemma CashewInEveryKey(c: string)
    ensures forall i :: 0 <= i < |CommodityUplift| && Contains(c, CommodityUplift[i].0) ==> Contains(c, "cashew")
  {
    forall i | 0 <= i < |CommodityUplift| && Contains(c, CommodityUplift[i].0) ensures Contains(c, "cashew") {
      PrefixContained(c, CommodityUplift[i].0, "cashew");
    }
  }

  /** A text containing `long` contains every prefix of `long`. */
  lemma PrefixContained(c: string, long: string, short: string)
    requires Contains(c, long) && |short| <= |long| && long[..|short|] == short
    ensures Contains(c, short)
  {
    ContainsIff(c, long);
    var i :| OccursAt(c, long, i);
    assert c[i..i + |short|] == long[..|short|];
    ContainsAt(c, short, i);
  }

  /** As written the 5.0 entries are never used: "cashewnut" and
      "cashewnuts" both contain "cashew", which is tried first. */
  lemma UpliftNeverFive(cropName: string)
    ensures GetUplift(cropName) != 5.0
    ensures GetUplift("cashewnuts") == 6.0
  {
    ContainsAt("cashewnuts", "cashew", 0);
  }

  /** The entry whose key is the longest one occurring in `c`; the earliest
      such entry on a tie. */
  function LongestMatch(table: seq<(string, real)>, c: string): (r: Option<(string, real)>)
    ensures r.None? <==> forall i :: 0 <= i < |table| ==> !Contains(c, table[i].0)
    ensures r.Some? ==> r.value in table && Contains(c, r.value.0)
    ensures r.Some? ==> forall i :: 0 <= i < |table| && Contains(c, table[i].0) ==> |table[i].0| <= |r.value.0|
    decreases |table|
  {
    if table == [] then None
    else
      var rest := LongestMatch(table[1..], c);
      assert forall i :: 1 <= i < |table| ==> table[i] == table[1..][i - 1];
      if !Contains(c, table[0].0) then rest
      else if rest.Some? && |rest.value.0| > |table[0].0| then rest
      else Some(table[0])
  }

  /** `get_uplift_for_crop` with the most specific key winning. */
  function GetUpliftSpecific(cropName: string): (r: real)
    ensures LongestMatch(CommodityUplift, Lower(cropName)).None? ==> r == 1.0
    ensures LongestMatch(CommodityUplift, Lower(cropName)).Some? ==> r == LongestMatch(CommodityUplift, Lower(cropName)).value.1
  {
    match LongestMatch(CommodityUplift, Lower(cropName))
    case None => 1.0
    case Some(e) => e.1
  }

  /** With the most specific key winning, a cashew-nut name gets 5.0 and
      any other cashew name 6.0. */
  lemma SpecificUplift(cropName: string)
    ensures Contains(Lower(cropName), "cashewnut") ==> GetUpliftSpecific(cropName) == 5.0
    ensures Contains(Lower(cropName), "cashew") && !Contains(Lower(cropName), "cashewnut")
      ==> GetUpliftSpecific(cropName) == 6.0
    ensures !Contains(Lower(cropName), "cashew") ==> GetUpliftSpecific(cropName) == 1.0
  {
    var c := Lower(cropName);
    CashewInEveryKey(c);
    if Contains(c, "cashewnut") {
      assert Contains(c, CommodityUplift[1].0);
    } else if Contains(c, "cashewnuts") {
      PrefixContained(c, "cashewnuts", "cashewnut");
    }
  }

  // ------------------------------------------------------- recommendations

  /** A crop category of `get_pricing_recommendations`: its search terms,
      margin, distributor markup and note. */
  datatype Category = Category(terms: seq<string>, margin: real, markup: real, note: string)

  const Staple := Category(["rice", "wheat", "maize", "corn"], 12.0, 25.0, "Staple crops typically have lower margins")
  const Nut := Category(["cashew", "almond", "walnut", "pistachio"], 20.0, 35.0, "Premium nuts command higher margins")
  const Spice := Category(["spice", "turmeric", "cardamom", "pepper"], 18.0, 32.0, "Spices have good profit potential")
  const Vegetable := Category(["vegetable", "tomato", "onion", "potato"], 10.0, 20.0, "Perishable vegetables require quick turnover")

  /** The categories in the order the source checks them. */
  const Categories: seq<Category> := [Staple, Nut, Spice, Vegetable]

  const LowValueNote := "Low-value crop - consider volume discounts"
  const HighValueNote := "High-value crop - premium pricing possible"

  /** `any(term in c for term in terms)`. */
  predicate AnyTerm(c: string, terms: seq<string>) {
    exists i :: 0 <= i < |terms| && Contains(c, terms[i])
  }

  datatype Recommendation = Recommendation(margin: real, markup: real, notes: seq<string>)

  /** `get_pricing_recommendations`: the if/elif chain over the categories,
      then the price-band note. */
  function GetPricingRecommendations(cropName: string, marketPrice: real): (r: Recommendation)
    ensures |r.notes| <= 2
    ensures marketPrice < 20.0 || marketPrice > 100.0 <==> |r.notes| >= 1 && r.notes[|r.notes| - 1] in [LowValueNote, HighValueNote]
    ensures marketPrice < 20.0 ==> r.notes[|r.notes| - 1] == LowValueNote
    ensures marketPrice > 100.0 ==> r.notes[|r.notes| - 1] == HighValueNote
  {
    var c := Lower(cropName);
    var base :=
      if AnyTerm(c, Staple.terms) then Recommendation(12.0, 25.0, ["Staple crops typically have lower margins"])
      else if AnyTerm(c, Nut.terms) then Recommendation(20.0, 35.0, ["Premium nuts command higher margins"])
      else if AnyTerm(c, Spice.terms) then Recommendation(18.0, 32.0, ["Spices have good profit potential"])
      else if AnyTerm(c, Vegetable.terms) then Recommendation(10.0, 20.0, ["Perishable vegetables require quick turnover"])
      else Recommendation(15.0, 30.0, []);
    if marketPrice < 20.0 then base.(notes := base.notes + [LowValueNote])
    else if marketPrice > 100.0 then base.(notes := base.notes + [HighValueNote])
    else base
  }

  /** The index of the first category with a matching term. */
  function FirstCategory(c: string, k: nat): (r: Option<nat>)
    requires k <= |Categories|
    ensures r.Some? ==> k <= r.value < |Categories| && AnyTerm(c, Categories[r.value].terms)
    ensures r.Some? ==> forall j :: k <= j < r.value ==> !AnyTerm(c, Categories[j].terms)
    ensures r.None? ==> forall j :: k <= j < |Categories| ==> !AnyTerm(c, Categories[j].terms)
    decreases |Categories| - k
  {
    if k == |Categories| then None
    else if AnyTerm(c, Categories[k].terms) then Some(k)
    else FirstCategory(c, k + 1)
  }

  /** The chain agrees with the category table: the first matching category
      alone decides margin, markup and the leading note; with no match the
      defaults 15/30 apply and no category note is added. */
  lemma RecommendationFollowsTable(cropName: string, marketPrice: real)
    ensures var r := GetPricingRecommendations(cropName, marketPrice);
      match FirstCategory(Lower(cropName), 0)
      case Some(k) => r.margin == Categories[k].margin && r.markup == Categories[k].markup
        && |r.notes| >= 1 && r.notes[0] == Categories[k].note
      case None => (r.margin == 15.0 && r.markup == 30.0
                    && (20.0 <= marketPrice <= 100.0 ==> r.notes == []))
  {
    var c := Lower(cropName);
    assert Categories[0] == Staple && Categories[1] == Nut && Categories[2] == Spice && Categories[3] == Vegetable;
    var f := FirstCategory(c, 0);
    if f.Some? {
      assert f.value == 0 || !AnyTerm(c, Staple.terms);
      assert f.value <= 1 || !AnyTerm(c, Nut.terms);
      assert f.value <= 2 || !AnyTerm(c, Spice.terms);
    }
  }

  // ------------------------------------------------------------- unit scale

  /** `infer_unit_scale`: prices quoted per quintal (a median of 300 or more)
      are scaled to per kilogram; `None` is an empty frame. */
  function InferUnitScale(median: Option<real>): (r: real)
    ensures r == 1.0 <==> median.None? || median.value < 300.0
    ensures r == 0.01 <==> median.Some? && median.value >= 300.0
  {
    match median
    case None => 1.0
    case Some(m) => if m < 300.0 then 1.0 else 0.01
  }

  /** A larger median never gets a larger scale: prices quoted per quintal
      (median 300 and up) are scaled down, and an empty selection is read as
      already per kilogram. */
  lemma UnitScaleAntitone(a: real, b: real)
    requires a <= b
    ensures InferUnitScale(Some(b)) <= InferUnitScale(Some(a)) <= InferUnitScale(None)
    ensures 0.01 <= InferUnitScale(Some(b))
  {
  }

  // ---------------------------------------------------------------- estimate

  /** Python's `x or y` on optional floats: `None` and 0.0 are falsy. */
  function OrElse(x: Option<real>, y: real): (r: real)
    ensures x.Some? && x.value != 0.0 ==> r == x.value
    ensures x.None? || x.value == 0.0 ==> r == y
  {
    if x.Some? && x.value != 0.0 then x.value else y
  }

  /** The statistics `compute_trend_stats` hands over. A key that is absent
      or holds `None` is `None` here. */
  datatype Trend = Trend(median12m: Option<real>, medianAll: Option<real>, p25: Option<real>, p75: Option<real>)

  function Max(a: real, b: real): real {
    if a >= b then a else b
  }

  function Min(a: real, b: real): real {
    if a <= b then a else b
  }

  /** The weather nudge: heavy rain (over 50 mm) lowers the price by 5%,
      some rain (over 10 mm) by 2%; no reading counts as dry. */
  function WeatherAdjustment(precipitation: Option<real>): (r: real)
    ensures r == -0.05 <==> precipitation.Some? && precipitation.value > 50.0
    ensures r == -0.02 <==> precipitation.Some? && 10.0 < precipitation.value <= 50.0
    ensures r == 0.0 <==> precipitation.None? || precipitation.value <= 10.0
  {
    var p := OrElse(precipitation, 0.0);
    if p > 50.0 then -0.05
    else if p > 10.0 then -0.02
    else 0.0
  }

  /** The figures `estimate_price_from_csv` returns, with the hints and the
      anchor it computes on the way. */
  datatype Estimate = Estimate(lowerHint: real, upperHint: real, anchor: real, pricePerKg: real, quantityKg: real) {
    /** `total_price`. */
    function TotalPrice(): real {
      pricePerKg * quantityKg
    }
  }

  /** The median used: the recent one, else the all-time one, else 0. */
  function Median(t: Trend): real {
    OrElse(t.median12m, OrElse(t.medianAll, 0.0))
  }

  /** The price hints around the uplifted statistics. */
  function LowerHint(p25U: real, medianU: real): (r: real)
    ensures r >= 0.1 && r >= p25U * 0.9 && r >= medianU * 0.7
    ensures r == 0.1 || r == p25U * 0.9 || r == medianU * 0.7
  {
    Max(0.1, Max(p25U * 0.9, medianU * 0.7))
  }

  function UpperHint(p75U: real, medianU: real, lower: real): (r: real)
    ensures r >= lower + 10.0 && r >= medianU * 1.5 && r >= p75U * 1.3
    ensures r == lower + 10.0 || r == medianU * 1.5 || r == p75U * 1.3
  {
    Max(medianU * 1.5, Max(p75U * 1.3, lower + 10.0))
  }

  /** A recent median exists (and is non-zero) and exceeds the all-time
      median, an absent all-time median counting as 0. */
  predicate RecentHigher(t: Trend) {
    t.median12m.Some? && t.median12m.value != 0.0
    && t.median12m.value > (if t.medianAll.Some? then t.medianAll.value else 0.0)
  }

  function Anchor(t: Trend, medianU: real): (r: real)
    ensures RecentHigher(t) ==> r == medianU * 1.03
    ensures !RecentHigher(t) ==> r == medianU
  {
    if RecentHigher(t) then medianU * 1.03 else medianU
  }

  /** `max(lower, min(x, upper))`. */
  function Clamp(x: real, lower: real, upper: real): (r: real)
    requires lower <= upper
    ensures lower <= r <= upper
    ensures lower <= x <= upper ==> r == x
    ensures x < lower ==> r == lower
    ensures x > upper ==> r == upper
  {
    Max(lower, Min(x, upper))
  }

  /** The median and quartiles after the uplift, each falling back to the
      median as `p25 = ... or median` does. */
  datatype Uplifted = Uplifted(median: real, p25: real, p75: real)

  function Uplift(t: Trend, uplift: real): (r: Uplifted)
    ensures r.median == Median(t) * uplift
    ensures r.p25 == OrElse(t.p25, Median(t)) * uplift
    ensures r.p75 == OrElse(t.p75, Median(t)) * uplift
  {
    var median := Median(t);
    Uplifted(median * uplift, OrElse(t.p25, median) * uplift, OrElse(t.p75, median) * uplift)
  }

  /** `anchor * (1 + weather_adj)`. */
  function Nudge(anchor: real, precipitation: Option<real>): (r: real)
    ensures r == anchor * (1.0 + WeatherAdjustment(precipitation))
    ensures anchor >= 0.0 ==> r <= anchor
  {
    var adj := WeatherAdjustment(precipitation);
    if adj == -0.05 then anchor * 0.95 else if adj == -0.02 then anchor * 0.98 else anchor
  }

  /** The arithmetic of `estimate_price_from_csv` for a given uplift. */
  function EstimatePrice(uplift: real, t: Trend, precipitation: Option<real>, kilograms: real): (r: Estimate)
    ensures r.lowerHint >= 0.1
    ensures r.upperHint >= r.lowerHint + 10.0
    ensures r.lowerHint <= r.pricePerKg <= r.upperHint
    ensures r.quantityKg == kilograms
    ensures r.lowerHint == LowerHint(Uplift(t, uplift).p25, Uplift(t, uplift).median)
    ensures r.upperHint == UpperHint(Uplift(t, uplift).p75, Uplift(t, uplift).median, r.lowerHint)
    ensures r.anchor == Anchor(t, Uplift(t, uplift).median)
    ensures r.pricePerKg == Clamp(Nudge(r.anchor, precipitation), r.lowerHint, r.upperHint)
  {
    var u := Uplift(t, uplift);
    var lower := LowerHint(u.p25, u.median);
    var upper := UpperHint(u.p75, u.median, lower);
    var anchor := Anchor(t, u.median);
    Estimate(lower, upper, anchor, Clamp(Nudge(anchor, precipitation), lower, upper), kilograms)
  }

  /** The anchor is the uplifted median, raised by 3% exactly when a recent
      median exists and exceeds the all-time one; the weather nudge is
      applied to it and the result clamped into the hints. */
  lemma AnchorRule(uplift: real, t: Trend, precipitation: Option<real>, kilograms: real)
    ensures var r := EstimatePrice(uplift, t, precipitation, kilograms);
      var nudged := r.anchor * (1.0 + WeatherAdjustment(precipitation));
      (RecentHigher(t) ==> r.anchor == Median(t) * uplift * 1.03)
      && (!RecentHigher(t) ==> r.anchor == Median(t) * uplift)
      && (r.lowerHint <= nudged <= r.upperHint ==> r.pricePerKg == nudged)
      && (nudged < r.lowerHint ==> r.pricePerKg == r.lowerHint)
      && (nudged > r.upperHint ==> r.pricePerKg == r.upperHint)
  {
  }

  /** Rain never raises the price: a wetter reading gives a price no higher
      than a drier one, all else equal, for a non-negative anchor. */
  lemma RainNeverRaisesPrice(uplift: real, t: Trend, wet: real, dry: real, kilograms: real)
    requires wet >= dry && uplift >= 0.0
    requires Median(t) >= 0.0
    ensures EstimatePrice(uplift, t, Some(wet), kilograms).pricePerKg
      <= EstimatePrice(uplift, t, Some(dry), kilograms).pricePerKg
  {
    var a := Anchor(t, Median(t) * uplift);
    assert a >= 0.0;
    assert WeatherAdjustment(Some(wet)) <= WeatherAdjustment(Some(dry));
    assert a * (1.0 + WeatherAdjustment(Some(wet))) <= a * (1.0 + WeatherAdjustment(Some(dry)));
  }

  // ------------------------------------------------------------------ tiers

  const DefaultProfitMargin := 10.0
  const DefaultDistributorMarkup := 30.0
  const DefaultRetailerMarkup := 20.0

  datatype Tiers = Tiers(farmerToDistributor: real, distributorToRetailer: real, retailerToCustomer: real)

  /** The price chain of `print_human_readable`: each tier is the previous
      one raised by its percentage. */
  function PriceTiers(pricePerKg: real, profitMargin: real, distributorMarkup: real, retailerMarkup: real): (r: Tiers)
    ensures r.farmerToDistributor == pricePerKg * (1.0 + profitMargin / 100.0)
    ensures r.distributorToRetailer == r.farmerToDistributor * (1.0 + distributorMarkup / 100.0)
    ensures r.retailerToCustomer == r.distributorToRetailer * (1.0 + retailerMarkup / 100.0)
    ensures r.retailerToCustomer == pricePerKg * (1.0 + profitMargin / 100.0)
      * (1.0 + distributorMarkup / 100.0) * (1.0 + retailerMarkup / 100.0)
  {
    var f := pricePerKg * (1.0 + profitMargin / 100.0);
    var d := f * (1.0 + distributorMarkup / 100.0);
    Tiers(f, d, d * (1.0 + retailerMarkup / 100.0))
  }

  /** With a non-negative base price and markups the tiers never decrease,
      so every party's profit is non-negative; with the default percentages
      the customer pays 1.716 times the base price. */
  lemma TiersNonDecreasing(p: real, pm: real, dm: real, rm: real)
    requires p >= 0.0 && pm >= 0.0 && dm >= 0.0 && rm >= 0.0
    ensures var t := PriceTiers(p, pm, dm, rm);
      p <= t.farmerToDistributor <= t.distributorToRetailer <= t.retailerToCustomer
    ensures PriceTiers(p, DefaultProfitMargin, DefaultDistributorMarkup, DefaultRetailerMarkup).retailerToCustomer
      == p * 1.716
  {
    var t := PriceTiers(p, pm, dm, rm);
    assert t.farmerToDistributor >= 0.0;
    assert t.distributorToRetailer == t.farmerToDistributor * (1.0 + dm / 100.0);
    assert t.retailerToCustomer == t.distributorToRetailer * (1.0 + rm / 100.0);
  }
}

=== FILE: qr_codec.dfy ===
/** The QR payload codec of the AgriTrace front end
    (frontend/src/utils/qrCodeUtils.ts). A product record is wrapped in the
    envelope `{type, version, data, signature}`, printed as JSON, and read
    back from scanned text. The signature is the first 8 hexadecimal digits
    of Keccak-256 over the UTF-8 bytes of `JSON.stringify(data)`. Keccak-256
    is the parameter `hash`; the clock is the parameter `now`. */
module QrCodec {
  import opened Wrappers
  import opened Strings
  import opened Json
  import opened JsonParse
  import opened JsonRoundTrip
  import opened Utf8
  import opened Js

  const PayloadType := "AGRITRACE_PRODUCT"
  const PayloadVersion := "1.0"
  const VerifyBase := "https://agritrace.app/verify/"
  /** 24 * 365 hours. */
  const DefaultMaxAgeHours := 8760.0
  const MsPerHour := 3600000.0

  predicate IsLowerHex(c: char) {
    '0' <= c <= '9' || 'a' <= c <= 'f'
  }

  predicate IsDigest(h: string) {
    |h| == 66 && h[0] == '0' && h[1] == 'x' && forall i :: 2 <= i < 66 ==> IsLowerHex(h[i])
  }

  /** `ethers.keccak256` output: "0x" and 64 lower-case hexadecimal digits. */
  type Digest = h: string | IsDigest(h) witness "0x" + seq(64, _ => '0')

  /** Keccak-256 over bytes; its internals are not modelled. */
  type Hasher = seq<byte> -> Digest

  /** The fields the farmer supplies (the `productData` argument). Numbers
      are integers in this model. */
  datatype ProductInput = ProductInput(
    cropType: string, variety: string, farmerName: string, farmerLocation: string,
    harvestDate: string, qualityScore: int, description: string, blockchainHash: string)

  /** `QRCodeData`. */
  datatype QRCodeData = QRCodeData(
    productId: int, cropType: string, variety: string, farmerName: string,
    farmerLocation: string, harvestDate: string, qualityScore: int,
    description: string, blockchainHash: string, verificationUrl: string, timestamp: int)

  /** `QRCodePayload`: `type` and `version` are the constants above. */
  datatype QRCodePayload = QRCodePayload(data: QRCodeData, signature: string)

  /** The keys of the `QRCodeData` object literal, in source order. */
  const DataKeys: seq<string> := ["productId", "cropType", "variety", "farmerName",
    "farmerLocation", "harvestDate", "qualityScore", "description", "blockchainHash",
    "verificationUrl", "timestamp"]

  /** The record as the object literal builds it, keys in source order. */
  function DataToJson(d: QRCodeData): (r: Json)
    ensures r.JObj? && |r.members| == |DataKeys|
    ensures forall i :: 0 <= i < |DataKeys| ==> r.members[i].key == DataKeys[i]
  {
    JObj([
      Member("productId", JInt(d.productId)),
      Member("cropType", JStr(d.cropType)),
      Member("variety", JStr(d.variety)),
      Member("farmerName", JStr(d.farmerName)),
      Member("farmerLocation", JStr(d.farmerLocation)),
      Member("harvestDate", JStr(d.harvestDate)),
      Member("qualityScore", JInt(d.qualityScore)),
      Member("description", JStr(d.description)),
      Member("blockchainHash", JStr(d.blockchainHash)),
      Member("verificationUrl", JStr(d.verificationUrl)),
      Member("timestamp", JInt(d.timestamp))])
  }

  lemma DataKeysDistinct()
    ensures forall i, j :: 0 <= i < j < |DataKeys| ==> DataKeys[i] != DataKeys[j]
  {
    // Keys of equal length differ in their first character.
    forall i, j | 0 <= i < j < |DataKeys| ensures DataKeys[i] != DataKeys[j] {
      assert |DataKeys[i]| != |DataKeys[j]| || DataKeys[i][0] != DataKeys[j][0];
    }
  }

  /** A printed record reads back: it is well formed. */
  lemma DataWellFormed(d: QRCodeData)
    ensures WellFormed(DataToJson(d))
  {
    var ms := DataToJson(d).members;
    DataKeysDistinct();
    assert DistinctKeys(ms);
  }

  /** Every field of the record is found under its key. */
  lemma DataFields(d: QRCodeData)
    ensures Field(DataToJson(d), "productId") == Some(JInt(d.productId))
    ensures Field(DataToJson(d), "cropType") == Some(JStr(d.cropType))
    ensures Field(DataToJson(d), "variety") == Some(JStr(d.variety))
    ensures Field(DataToJson(d), "farmerName") == Some(JStr(d.farmerName))
    ensures Field(DataToJson(d), "farmerLocation") == Some(JStr(d.farmerLocation))
    ensures Field(DataToJson(d), "qualityScore") == Some(JInt(d.qualityScore))
    ensures Field(DataToJson(d), "description") == Some(JStr(d.description))
    ensures Field(DataToJson(d), "blockchainHash") == Some(JStr(d.blockchainHash))
    ensures Field(DataToJson(d), "timestamp") == Some(JInt(d.timestamp))
  {
    var ms := DataToJson(d).members;
    DataWellFormed(d);
    GetMember(ms, 0);
    GetMember(ms, 1);
    GetMember(ms, 2);
    GetMember(ms, 3);
    GetMember(ms, 4);
    GetMember(ms, 6);
    GetMember(ms, 7);
    GetMember(ms, 8);
    GetMember(ms, 10);
  }

  /** The envelope with an arbitrary `data` value and signature text. */
  function Envelope(data: Json, signature: string): (r: Json)
    ensures r.JObj? && |r.members| == 4 && DistinctKeys(r.members)
    ensures Field(r, "type") == Some(JStr(PayloadType))
    ensures Field(r, "version") == Some(JStr(PayloadVersion))
    ensures Field(r, "data") == Some(data)
    ensures Field(r, "signature") == Some(JStr(signature))
  {
    var ms := [
      Member("type", JStr(PayloadType)),
      Member("version", JStr(PayloadVersion)),
      Member("data", data),
      Member("signature", JStr(signature))];
    assert DistinctKeys(ms);
    GetMember(ms, 2);
    GetMember(ms, 3);
    JObj(ms)
  }

  lemma EnvelopeWellFormed(data: Json, signature: string)
    requires WellFormed(data)
    ensures WellFormed(Envelope(data, signature))
  {
    var ms := Envelope(data, signature).members;
    assert forall i :: 0 <= i < |ms| ==> WellFormed(ms[i].value);
  }

  function PayloadToJson(p: QRCodePayload): Json {
    Envelope(DataToJson(p.data), p.signature)
  }

  /** `generateSignature`: characters 2..9 of the digest of the printed
      value, i.e. the first 8 hexadecimal digits after "0x". */
  function Sign(hash: Hasher, data: Json): (r: string)
    ensures |r| == 8 && forall i :: 0 <= i < 8 ==> IsLowerHex(r[i])
    ensures hash(Encode(Stringify(data)))[..10] == "0x" + r
  {
    var h := hash(Encode(Stringify(data)));
    assert h[..10] == h[..2] + h[2..10];
    h[2..10]
  }

  /** `generateQRCodeData(productId, productData)` at clock value `now`. */
  function GenerateQRCodeData(hash: Hasher, productId: int, input: ProductInput, now: int): (r: QRCodePayload)
    ensures r.data.productId == productId && r.data.timestamp == now
    ensures r.data.cropType == input.cropType && r.data.variety == input.variety
    ensures r.data.farmerName == input.farmerName && r.data.farmerLocation == input.farmerLocation
    ensures r.data.harvestDate == input.harvestDate && r.data.qualityScore == input.qualityScore
    ensures r.data.description == input.description && r.data.blockchainHash == input.blockchainHash
    ensures r.data.verificationUrl == VerifyBase + IntToString(productId)
    ensures r.signature == Sign(hash, DataToJson(r.data))
  {
    var d := QRCodeData(productId, input.cropType, input.variety, input.farmerName,
      input.farmerLocation, input.harvestDate, input.qualityScore, input.description,
      input.blockchainHash, VerifyBase + IntToString(productId), now);
    QRCodePayload(d, Sign(hash, DataToJson(d)))
  }

  /** `verifyQRCodeData`: the signature recomputed over `payload.data` must
      equal `payload.signature`. A missing `data` makes
      `JSON.stringify` return `undefined`, `toUtf8Bytes` throw, and the
      function answer false; so does a payload of `null`. */
  function VerifyQRCodeData(hash: Hasher, payload: Json): (r: bool)
    ensures Field(payload, "data").None? ==> !r
    ensures r ==> exists s :: Field(payload, "signature") == Some(JStr(s)) && |s| == 8
    ensures r <==> exists d :: Field(payload, "data") == Some(d) && Field(payload, "signature") == Some(JStr(Sign(hash, d)))
  {
    match Field(payload, "data")
    case None => false
    case Some(data) => Field(payload, "signature") == Some(JStr(Sign(hash, data)))
  }

  /** How `parseQRCodeData` ends, in the order it checks: the text must be
      JSON, the envelope must carry the expected `type` and `version`, and
      the signature must match. Each rejection is caught and becomes
      `null`; nothing escapes. */
  datatype Verdict = NotJson | WrongFormat | BadSignature | Accepted(payload: Json)

  predicate HasFormat(p: Json) {
    Field(p, "type") == Some(JStr(PayloadType)) && Field(p, "version") == Some(JStr(PayloadVersion))
  }

  function Classify(hash: Hasher, text: string): (r: Verdict)
    ensures r.Accepted? ==> Parse(text) == Some(r.payload)
    ensures r == NotJson <==> Parse(text).None?
    ensures r == WrongFormat <==> Parse(text).Some? && !HasFormat(Parse(text).value)
    ensures r == BadSignature <==>
      Parse(text).Some? && HasFormat(Parse(text).value) && !VerifyQRCodeData(hash, Parse(text).value)
  {
    match Parse(text)
    case None => NotJson
    case Some(p) =>
      if !HasFormat(p) then WrongFormat
      else if !VerifyQRCodeData(hash, p) then BadSignature
      else Accepted(p)
  }

  /** `parseQRCodeData`: the payload, or `None` for `null`. */
  function ParseQRCodeData(hash: Hasher, text: string): (r: Option<Json>)
    ensures r.Some? ==> HasFormat(r.value) && VerifyQRCodeData(hash, r.value)
    ensures r.Some? ==> r.value.JObj? && Field(r.value, "data").Some?
  {
    match Classify(hash, text)
    case Accepted(p) => Some(p)
    case _ => None
  }

  /** `generateQRCodeString`. */
  function GenerateQRCodeString(p: QRCodePayload): (r: string)
    ensures Parse(r) == Some(PayloadToJson(p))
  {
    DataWellFormed(p.data);
    EnvelopeWellFormed(DataToJson(p.data), p.signature);
    ParseStringify(PayloadToJson(p));
    Stringify(PayloadToJson(p))
  }

  // ------------------------------------------------------------ properties

  /** A freshly generated payload passes verification. */
  lemma VerifyGenerated(hash: Hasher, productId: int, input: ProductInput, now: int)
    ensures VerifyQRCodeData(hash, PayloadToJson(GenerateQRCodeData(hash, productId, input, now)))
  {
  }

  /** What `parseQRCodeData` accepts, both directions: JSON text whose value
      has the expected type and version and whose signature is the one
      recomputed over its `data`. */
  lemma ParseAcceptsIff(hash: Hasher, text: string)
    ensures ParseQRCodeData(hash, text).Some? <==>
      (Parse(text).Some? && HasFormat(Parse(text).value)
       && (exists d :: Field(Parse(text).value, "data") == Some(d)
             && Field(Parse(text).value, "signature") == Some(JStr(Sign(hash, d)))))
  {
    if Parse(text).Some? {
      var p := Parse(text).value;
      if HasFormat(p) && Field(p, "data").Some? {
        var d := Field(p, "data").value;
        if Field(p, "signature") == Some(JStr(Sign(hash, d))) {
          assert VerifyQRCodeData(hash, p);
        }
      }
    }
  }

  /** The check order: text with the wrong type or version is refused as
      malformed even when its signature would match. */
  lemma FormatCheckedFirst(hash: Hasher, data: Json, t: string)
    requires WellFormed(data) && t != PayloadType
    ensures Classify(hash, Stringify(JObj([Member("type", JStr(t)),
      Member("version", JStr(PayloadVersion)), Member("data", data),
      Member("signature", JStr(Sign(hash, data)))]))) == WrongFormat
  {
    var ms := [Member("type", JStr(t)), Member("version", JStr(PayloadVersion)),
      Member("data", data), Member("signature", JStr(Sign(hash, data)))];
    assert DistinctKeys(ms);
    assert forall i :: 0 <= i < |ms| ==> WellFormed(ms[i].value);
    ParseStringify(JObj(ms));
    GetMember(ms, 0);
  }

  /** A signature that differs from the one recomputed over `data` is
      refused, whatever else the text holds. */
  lemma WrongSignatureRejected(hash: Hasher, text: string, d: Json, s: string)
    requires Parse(text).Some?
    requires Field(Parse(text).value, "data") == Some(d)
    requires Field(Parse(text).value, "signature") == Some(JStr(s))
    requires s != Sign(hash, d)
    ensures ParseQRCodeData(hash, text).None?
  {
  }

  /** No shape check on `data`: an envelope around ANY JSON value, signed
      over that value, is accepted and read back unchanged. */
  lemma AnyDataAccepted(hash: Hasher, data: Json)
    requires WellFormed(data)
    ensures ParseQRCodeData(hash, Stringify(Envelope(data, Sign(hash, data))))
      == Some(Envelope(data, Sign(hash, data)))
  {
    var e := Envelope(data, Sign(hash, data));
    EnvelopeWellFormed(data, Sign(hash, data));
    ParseStringify(e);
  }

  /** Round trip: the printed form of a generated payload parses back to
      that payload. */
  lemma GenerateParseRoundTrip(hash: Hasher, productId: int, input: ProductInput, now: int)
    ensures ParseQRCodeData(hash, GenerateQRCodeString(GenerateQRCodeData(hash, productId, input, now)))
      == Some(PayloadToJson(GenerateQRCodeData(hash, productId, input, now)))
  {
    var p := GenerateQRCodeData(hash, productId, input, now);
    DataWellFormed(p.data);
    AnyDataAccepted(hash, DataToJson(p.data));
  }

  // ------------------------------------------------------------- expiry

  /** `payload.data.timestamp` as a number; `None` when reading it throws
      (a payload or `data` of `null` or `undefined`). */
  function Timestamp(payload: Json, strToNum: string -> Number): (r: Option<Number>)
    ensures Field(payload, "data") == Some(JNull) ==> r.None?
  {
    match Prop(Some(payload), "data")
    case None => None
    case Some(data) =>
      match Prop(data, "timestamp")
      case None => None
      case Some(ts) => Some(ToNumber(ts, strToNum))
  }

  /** `isQRCodeExpired(payload, maxAgeHours)` at clock value `now`: the age
      in hours strictly exceeds the limit. `None` is the TypeError thrown
      when `data` is `null`. A timestamp that is not a number makes the age
      NaN, which is never expired. */
  function IsQRCodeExpired(payload: Json, now: int, maxAgeHours: real, strToNum: string -> Number): (r: Option<bool>)
    ensures Field(payload, "data") == Some(JNull) ==> r.None?
    ensures forall d, t :: Field(payload, "data") == Some(d) && Field(d, "timestamp") == Some(JInt(t)) ==>
      r == Some((now - t) as real > maxAgeHours * MsPerHour)
  {
    match Timestamp(payload, strToNum)
    case None => None
    case Some(ts) => Some(Greater(Over(Minus(now as real, ts), MsPerHour), maxAgeHours))
  }

  /** A timestamp not in the past is never expired under a non-negative
      limit. */
  lemma FutureNotExpired(payload: Json, now: int, maxAgeHours: real, strToNum: string -> Number, d: Json, t: int)
    requires Field(payload, "data") == Some(d) && Field(d, "timestamp") == Some(JInt(t))
    requires t >= now && maxAgeHours >= 0.0
    ensures IsQRCodeExpired(payload, now, maxAgeHours, strToNum) == Some(false)
  {
  }

  /** A generated payload is expired exactly when more than `h` hours of
      milliseconds have passed since it was made. */
  lemma GeneratedExpiry(hash: Hasher, productId: int, input: ProductInput, made: int, now: int, h: real, strToNum: string -> Number)
    ensures IsQRCodeExpired(PayloadToJson(GenerateQRCodeData(hash, productId, input, made)), now, h, strToNum)
      == Some(now - made > (h * MsPerHour).Floor)
  {
    var p := GenerateQRCodeData(hash, productId, input, made);
    DataFields(p.data);
    RealFloorCompare(now - made, h * MsPerHour);
  }

  lemma RealFloorCompare(n: int, x: real)
    ensures (n as real > x) == (n > x.Floor)
  {
  }

  // ------------------------------------------------------------- display

  /** Locale formatting of `new Date(v)`: `toLocaleDateString` and
      `toLocaleString` depend on the host and are parameters. */
  datatype Formatters = Formatters(date: Option<Json> -> string, dateTime: Option<Json> -> string)

  /** The record `formatProductDataForDisplay` returns. Fields copied from
      `data` keep their JSON value, `None` standing for `undefined`. */
  datatype Display = Display(
    id: Option<Json>, crop: string, farmer: Option<Json>, location: Option<Json>,
    harvestDate: string, quality: string, description: Option<Json>,
    blockchainHash: Option<Json>, verified: bool, scanTime: string)

  /** The keys of the returned object literal, in order. */
  const DisplayKeys: seq<string> := ["id", "crop", "farmer", "location", "harvestDate",
    "quality", "description", "blockchainHash", "verified", "scanTime"]

  /** `formatProductDataForDisplay(data)` for a `data` that is not `null`
      (the caller has already read `data.timestamp`). */
  function FormatProductDataForDisplay(data: Json, fmt: Formatters): (r: Display)
    requires data != JNull
    ensures r.verified
    ensures r.crop == ToStr(Field(data, "cropType")) + " - " + ToStr(Field(data, "variety"))
    ensures r.quality == ToStr(Field(data, "qualityScore")) + "%"
    ensures r.id == Field(data, "productId") && r.farmer == Field(data, "farmerName")
    ensures r.location == Field(data, "farmerLocation") && r.description == Field(data, "description")
    ensures r.blockchainHash == Field(data, "blockchainHash")
  {
    Display(
      Field(data, "productId"),
      ToStr(Field(data, "cropType")) + " - " + ToStr(Field(data, "variety")),
      Field(data, "farmerName"),
      Field(data, "farmerLocation"),
      fmt.date(Field(data, "harvestDate")),
      ToStr(Field(data, "qualityScore")) + "%",
      Field(data, "description"),
      Field(data, "blockchainHash"),
      true,
      fmt.dateTime(Field(data, "timestamp")))
  }

  /** For a record built by `generateQRCodeData` the display shows the
      record's own text: "crop - variety", the score with a percent sign,
      and the id. */
  lemma DisplayOfRecord(d: QRCodeData, fmt: Formatters)
    ensures var r := FormatProductDataForDisplay(DataToJson(d), fmt);
      r.crop == d.cropType + " - " + d.variety
      && r.quality == IntToString(d.qualityScore) + "%"
      && r.id == Some(JInt(d.productId))
      && r.farmer == Some(JStr(d.farmerName))
      && r.location == Some(JStr(d.farmerLocation))
      && r.description == Some(JStr(d.description))
      && r.blockchainHash == Some(JStr(d.blockchainHash))
  {
    var j := DataToJson(d);
    DataFields(d);
    DisplayOfFields(j, fmt, Field(j, "cropType").value.s, Field(j, "variety").value.s,
      Field(j, "qualityScore").value.i);
  }

  lemma DisplayOfFields(j: Json, fmt: Formatters, crop: string, variety: string, score: int)
    requires j != JNull
    requires Field(j, "cropType") == Some(JStr(crop)) && Field(j, "variety") == Some(JStr(variety))
    requires Field(j, "qualityScore") == Some(JInt(score))
    ensures FormatProductDataForDisplay(j, fmt).crop == crop + " - " + variety
    ensures FormatProductDataForDisplay(j, fmt).quality == IntToString(score) + "%"
  {
    assert ToStr(Field(j, "cropType")) == crop;
    assert ToStr(Field(j, "variety")) == variety;
  }

  /** The display of a freshly generated payload shows the farmer's input. */
  lemma DisplayOfGenerated(hash: Hasher, productId: int, input: ProductInput, now: int, fmt: Formatters)
    ensures var r := FormatProductDataForDisplay(DataToJson(GenerateQRCodeData(hash, productId, input, now).data), fmt);
      r.crop == input.cropType + " - " + input.variety
      && r.quality == IntToString(input.qualityScore) + "%"
      && r.id == Some(JInt(productId))
      && r.farmer == Some(JStr(input.farmerName))
  {
    DisplayOfRecord(GenerateQRCodeData(hash, productId, input, now).data, fmt);
  }
}

=== FILE: qr_scanner.dfy ===
/** The scan handler of the QR code scanner component
    (frontend/src/components/QRCodeScanner.tsx) as a state machine over
    `(qrInput, scannedData, isValid, error)`. Toasts are not modelled; the
    callback `onProductScanned` is an output: the record it is called with. */
module QrScanner {
  import opened Wrappers
  import opened Strings
  import opened Json
  import opened JsonRoundTrip
  import opened Js
  import opened QrCodec

  datatype ScanState = ScanState(input: string, scanned: Option<Display>, isValid: Option<bool>, error: string)

  const InitialState := ScanState("", None, None, "")

  const MsgInvalid := "Invalid QR code format or corrupted data"
  const MsgExpired := "QR code has expired"
  const MsgFallback := "Failed to scan QR code"

  /** What one `handleScan` produced: the next state and the argument of
      `onProductScanned`, if it was called. */
  datatype Step = Step(state: ScanState, callback: Option<Display>)

  /** Everything outside the component that a scan depends on: the hash, the
      clock, `Number(string)`, the date formatters, and the message of the
      TypeError thrown by reading `timestamp` of `null` (host dependent). */
  datatype Env = Env(hash: Hasher, now: int, strToNum: string -> Number, fmt: Formatters, typeErrorMessage: string)

  /** `setQrInput`: typing changes only the input. */
  function SetInput(s: ScanState, text: string): (r: ScanState)
    ensures r.input == text && r.scanned == s.scanned && r.isValid == s.isValid && r.error == s.error
  {
    s.(input := text)
  }

  function Reject(s: ScanState, msg: string): (r: Step)
    ensures r.state.input == s.input && r.state.scanned.None? && r.state.isValid == Some(false)
    ensures r.callback.None? && r.state.error == msg
  {
    Step(ScanState(s.input, None, Some(false), msg), None)
  }

  /** `handleScan`. */
  function HandleScan(s: ScanState, env: Env): (r: Step)
    ensures IsBlank(s.input) ==> r == Step(s, None)
    ensures r.state.input == s.input
    ensures !IsBlank(s.input) ==> (r.state.scanned.Some? <==> r.state.isValid == Some(true))
    ensures r.callback.Some? <==> (!IsBlank(s.input) && r.state.isValid == Some(true))
    ensures r.callback.Some? ==> r.state.scanned == r.callback && r.state.error == ""
    ensures !IsBlank(s.input) ==>
      (r.state.isValid == Some(true) <==>
         ParseQRCodeData(env.hash, s.input).Some?
         && IsQRCodeExpired(ParseQRCodeData(env.hash, s.input).value, env.now, DefaultMaxAgeHours, env.strToNum) == Some(false))
    ensures !IsBlank(s.input) && ParseQRCodeData(env.hash, s.input).Some?
            && IsQRCodeExpired(ParseQRCodeData(env.hash, s.input).value, env.now, DefaultMaxAgeHours, env.strToNum) == Some(false) ==>
      var shown := FormatProductDataForDisplay(Field(ParseQRCodeData(env.hash, s.input).value, "data").value, env.fmt);
      r == Step(ScanState(s.input, Some(shown), Some(true), ""), Some(shown))
  {
    if IsBlank(s.input) then Step(s, None)
    else
      match ParseQRCodeData(env.hash, s.input)
      case None => Reject(s, MsgInvalid)
      case Some(payload) =>
        match IsQRCodeExpired(payload, env.now, DefaultMaxAgeHours, env.strToNum)
        case None =>
          // The TypeError is caught: `error.message || 'Failed to scan QR code'`.
          Reject(s, if env.typeErrorMessage == "" then MsgFallback else env.typeErrorMessage)
        case Some(true) => Reject(s, MsgExpired)
        case Some(false) =>
          var shown := FormatProductDataForDisplay(Field(payload, "data").value, env.fmt);
          Step(ScanState(s.input, Some(shown), Some(true), ""), Some(shown))
  }

  /** `clearScan`. */
  function ClearScan(s: ScanState): (r: ScanState)
    ensures r == InitialState
  {
    ScanState("", None, None, "")
  }

  /** The display invariant: data is shown exactly when the scan is valid. */
  predicate Consistent(s: ScanState) {
    s.scanned.Some? <==> s.isValid == Some(true)
  }

  /** The invariant holds initially and is kept by every handler. */
  lemma ConsistentInvariant(s: ScanState, env: Env, text: string)
    requires Consistent(s)
    ensures Consistent(InitialState)
    ensures Consistent(HandleScan(s, env).state)
    ensures Consistent(ClearScan(s))
    ensures Consistent(SetInput(s, text))
  {
  }

  /** Text that `parseQRCodeData` refuses leaves the scan invalid with the
      corruption message and no data. */
  lemma RejectedTextShowsInvalid(s: ScanState, env: Env)
    requires !IsBlank(s.input) && ParseQRCodeData(env.hash, s.input).None?
    ensures HandleScan(s, env) == Step(ScanState(s.input, None, Some(false), MsgInvalid), None)
  {
  }

  /** An expired payload is refused: no data is shown and the callback is not
      called. */
  lemma ExpiredIsRejected(s: ScanState, env: Env)
    requires !IsBlank(s.input) && ParseQRCodeData(env.hash, s.input).Some?
    requires IsQRCodeExpired(ParseQRCodeData(env.hash, s.input).value, env.now, DefaultMaxAgeHours, env.strToNum) == Some(true)
    ensures HandleScan(s, env) == Step(ScanState(s.input, None, Some(false), MsgExpired), None)
  {
  }

  /** A payload whose `data` is `null` passes the signature check when
      signed over `null`, and then makes the expiry check throw: the catch
      shows the error's message. */
  lemma NullDataCaught(s: ScanState, env: Env)
    requires !IsBlank(s.input) && ParseQRCodeData(env.hash, s.input).Some?
    requires Field(ParseQRCodeData(env.hash, s.input).value, "data") == Some(JNull)
    requires env.typeErrorMessage != ""
    ensures HandleScan(s, env).state == ScanState(s.input, None, Some(false), env.typeErrorMessage)
  {
  }

  /** Scanning the printed form of a freshly generated payload, within its
      validity period, shows that payload's record and hands the same record
      to the callback. */
  lemma ScanGenerated(hash: Hasher, productId: int, input: ProductInput, made: int, env: Env)
    requires env.hash == hash
    requires made <= env.now <= made + 8760 * 3600000
    ensures var p := GenerateQRCodeData(hash, productId, input, made);
      var text := GenerateQRCodeString(p);
      var shown := FormatProductDataForDisplay(DataToJson(p.data), env.fmt);
      HandleScan(ScanState(text, None, None, ""), env) == Step(ScanState(text, Some(shown), Some(true), ""), Some(shown))
  {
    var p := GenerateQRCodeData(hash, productId, input, made);
    var text := GenerateQRCodeString(p);
    GenerateParseRoundTrip(hash, productId, input, made);
    GeneratedExpiry(hash, productId, input, made, env.now, DefaultMaxAgeHours, env.strToNum);
    GeneratedTextNotBlank(p);
  }

  lemma GeneratedTextNotBlank(p: QRCodePayload)
    ensures !IsBlank(GenerateQRCodeString(p))
  {
    var text := GenerateQRCodeString(p);
    StringifyHead(PayloadToJson(p));
    assert text[0] == '{';
    BlankIff(text);
  }
}

=== FILE: quality.dfy ===
/** The post-processing of `CropQualityPredictor.predict_quality` in
    backend/api/ml_utils.py: the model's score for "good" becomes a label
    by a 0.4 threshold and a confidence by its distance from that threshold;
    without a model, or when anything on the way fails, a random mock
    prediction takes its place. The model itself, image loading and
    preprocessing are outside the model: their result is a parameter. */
module Quality {
  import opened Wrappers

  datatype Label = Good | Bad

  /** The dictionary returned: `quality_label`, `quality_score` and
      `confidence`. */
  datatype Prediction = Prediction(qualityLabel: Label, score: real, confidence: real)

  /** What running the loaded model gave: the score it output, or an
      exception (unreadable image, unexpected output shape, ...). */
  datatype ModelRun = Failed | Output(score: real)

  const Threshold := 0.4

  function Abs(x: real): real {
    if x < 0.0 then -x else x
  }

  /** `"good" if quality_score > 0.4 else "bad"`. */
  function LabelOf(score: real): (l: Label)
    ensures l == Good <==> score > Threshold
  {
    if score > Threshold then Good else Bad
  }

  /** `min(abs(quality_score - 0.4) * 2.5, 1.0)`. */
  function Confidence(score: real): (c: real)
    ensures 0.0 <= c <= 1.0
    ensures c == 0.0 <==> score == Threshold
    ensures c == 1.0 <==> score <= 0.0 || score >= 0.8
  {
    var c := Abs(score - Threshold) * 2.5;
    if c < 1.0 then c else 1.0
  }

  /** The prediction built from a model score. */
  function Classify(score: real): (p: Prediction)
    ensures p.score == score
    ensures p.qualityLabel == Good <==> score > Threshold
    ensures 0.0 <= p.confidence <= 1.0
    ensures p.confidence == 1.0 <==> score <= 0.0 || score >= 0.8
  {
    Prediction(LabelOf(score), score, Confidence(score))
  }

  /** A score further from the threshold is never less confident. */
  lemma ConfidenceMonotone(a: real, b: real)
    requires Abs(a - Threshold) <= Abs(b - Threshold)
    ensures Confidence(a) <= Confidence(b)
  {
  }

  /** Scores on the same side of the threshold at the same distance from it
      are the same score: label and confidence together determine a score
      below full confidence. */
  lemma ClassifyDeterminesScore(a: real, b: real)
    requires Classify(a).qualityLabel == Classify(b).qualityLabel
    requires Classify(a).confidence == Classify(b).confidence < 1.0
    ensures a == b
  {
  }

  /** `_mock_prediction`, given the two `random.uniform` draws as fractions
      `u` and `v` of their ranges [0.3, 0.8] and [0.6, 0.9]. The mock makes
      its own `> 0.4` test; the contract states that it labels exactly as the
      model path's `LabelOf` does. */
  function MockPrediction(u: real, v: real): (p: Prediction)
    requires 0.0 <= u <= 1.0 && 0.0 <= v <= 1.0
    ensures 0.3 <= p.score <= 0.8
    ensures 0.6 <= p.confidence <= 0.9
    ensures p.qualityLabel == Good <==> p.score > Threshold
    ensures p.qualityLabel == Good <==> u > 0.2
    ensures p.qualityLabel == LabelOf(p.score)
  {
    var score := 0.3 + 0.5 * u;
    Prediction(if score > 0.4 then Good else Bad, score, 0.6 + 0.3 * v)
  }

  /** `predict_quality`: `model` is `None` when no model was loaded. */
  function PredictQuality(model: Option<ModelRun>, u: real, v: real): (p: Prediction)
    requires 0.0 <= u <= 1.0 && 0.0 <= v <= 1.0
    ensures model == Some(Output(p.score)) || (0.3 <= p.score <= 0.8 && 0.6 <= p.confidence <= 0.9)
    ensures p.qualityLabel == Good <==> p.score > Threshold
    ensures p.qualityLabel == LabelOf(p.score)
    ensures model.Some? && model.value.Output? ==> p == Classify(model.value.score)
    ensures (model.None? || model == Some(Failed)) ==> p == MockPrediction(u, v)
  {
    match model
    case Some(Output(score)) => Classify(score)
    case _ => MockPrediction(u, v)
  }
}

=== FILE: strings.dfy ===
/** Character and string helpers shared by the model: decimal rendering of
    integers and its inverse, substring search, ASCII lower-casing, the
    JavaScript notion of white space used by `String.prototype.trim`, and
    `String.prototype.slice` with its clamping of negative indices. */
module Strings {

  predicate IsDigit(c: char) {
    '0' <= c <= '9'
  }

  predicate AllDigits(s: string) {
    forall i :: 0 <= i < |s| ==> IsDigit(s[i])
  }

  function DigitChar(d: nat): (c: char)
    requires d < 10
    ensures IsDigit(c) && c as int - '0' as int == d
  {
    ('0' as int + d) as char
  }

  function DigitValue(c: char): nat
    requires IsDigit(c)
  {
    c as int - '0' as int
  }

  /** Decimal rendering of a natural number, without leading zeros. */
  function NatToString(n: nat): (r: string)
    ensures |r| >= 1 && AllDigits(r)
    ensures |r| > 1 ==> r[0] != '0'
    ensures n == 0 <==> r == "0"
    decreases n
  {
    if n < 10 then [DigitChar(n)]
    else NatToString(n / 10) + [DigitChar(n % 10)]
  }

  /** Decimal rendering of an integer, with a leading '-' when negative,
      as JavaScript's `String(n)` and template literals print integers. */
  function IntToString(i: int): (r: string)
    ensures |r| >= 1
    ensures i < 0 <==> r[0] == '-'
    ensures i >= 0 ==> AllDigits(r)
  {
    if i < 0 then "-" + NatToString(-i) else NatToString(i)
  }

  /** The value of a string of decimal digits, read most significant first. */
  function DigitsValue(s: string): nat
    requires AllDigits(s)
    decreases |s|
  {
    if s == [] then 0
    else 10 * DigitsValue(s[..|s| - 1]) + DigitValue(s[|s| - 1])
  }

  /** Length of the longest prefix of decimal digits. */
  function DigitRun(s: string): (n: nat)
    ensures n <= |s| && AllDigits(s[..n])
    ensures n < |s| ==> !IsDigit(s[n])
    decreases |s|
  {
    if s != [] && IsDigit(s[0]) then
      var m := DigitRun(s[1..]);
      assert s[..m + 1] == [s[0]] + s[1..][..m];
      m + 1
    else 0
  }

  /** A run of digits ends where the digits end. */
  lemma DigitRunOf(d: string, rest: string)
    requires AllDigits(d)
    requires rest == [] || !IsDigit(rest[0])
    ensures DigitRun(d + rest) == |d|
    decreases |d|
  {
    if d != [] {
      assert (d + rest)[1..] == d[1..] + rest;
      DigitRunOf(d[1..], rest);
    }
  }

  /** Reading back a rendered natural gives the same natural. */
  lemma {:induction false} NatToStringRoundTrip(n: nat)
    ensures DigitsValue(NatToString(n)) == n
    decreases n
  {
    if n >= 10 {
      var r := NatToString(n);
      assert r[..|r| - 1] == NatToString(n / 10);
      NatToStringRoundTrip(n / 10);
    }
  }

  /** Distinct naturals render differently. */
  lemma NatToStringInjective(a: nat, b: nat)
    requires NatToString(a) == NatToString(b)
    ensures a == b
  {
    NatToStringRoundTrip(a);
    NatToStringRoundTrip(b);
  }

  /** Distinct integers render differently. */
  lemma IntToStringInjective(a: int, b: int)
    requires IntToString(a) == IntToString(b)
    ensures a == b
  {
    if a < 0 && b < 0 {
      assert NatToString(-a) == IntToString(a)[1..];
      assert NatToString(-b) == IntToString(b)[1..];
      NatToStringInjective(-a, -b);
    } else if a >= 0 && b >= 0 {
      NatToStringInjective(a, b);
    }
  }

  /** Substring test: Python's `sub in s`, JavaScript's `s.includes(sub)`. */
  predicate Contains(s: string, sub: string)
    decreases |s|
  {
    if |sub| > |s| then false
    else if s[..|sub|] == sub then true
    else Contains(s[1..], sub)
  }

  /** `sub` occurs in `s` starting at position `i`. */
  predicate OccursAt(s: string, sub: string, i: int) {
    0 <= i <= |s| - |sub| && s[i..i + |sub|] == sub
  }

  /** `Contains` agrees with the positional definition of a substring. */
  lemma {:induction false} ContainsIff(s: string, sub: string)
    ensures Contains(s, sub) <==> exists i :: OccursAt(s, sub, i)
    decreases |s|
  {
    if |sub| > |s| {
    } else if s[..|sub|] == sub {
      assert OccursAt(s, sub, 0);
    } else {
      ContainsIff(s[1..], sub);
      if Contains(s, sub) {
        var i :| OccursAt(s[1..], sub, i);
        assert s[i + 1..i + 1 + |sub|] == s[1..][i..i + |sub|];
        assert OccursAt(s, sub, i + 1);
      }
      if exists i :: OccursAt(s, sub, i) {
        var i :| OccursAt(s, sub, i);
        assert i != 0;
        assert s[1..][i - 1..i - 1 + |sub|] == s[i..i + |sub|];
        assert OccursAt(s[1..], sub, i - 1);
      }
    }
  }

  lemma ContainsAt(s: string, sub: string, i: int)
    requires OccursAt(s, sub, i)
    ensures Contains(s, sub)
  {
    ContainsIff(s, sub);
  }

  /** ASCII lower-casing of one character; other characters are kept. */
  function LowerChar(c: char): (r: char)
    ensures 'A' <= c <= 'Z' ==> 'a' <= r <= 'z'
    ensures !('A' <= c <= 'Z') ==> r == c
  {
    if 'A' <= c <= 'Z' then (c as int + 32) as char else c
  }

  function Lower(s: string): (r: string)
    ensures |r| == |s|
    ensures forall i :: 0 <= i < |s| ==> r[i] == LowerChar(s[i])
  {
    seq(|s|, i requires 0 <= i < |s| => LowerChar(s[i]))
  }

  /** The characters JavaScript's `trim` removes: WhiteSpace and
      LineTerminator of ECMA-262 (section 12.2 and 12.3 of the 2023 edition). */
  predicate IsJsSpace(c: char) {
    c == ' ' || c == '\t' || c == '\n' || c == '\r'
    || c as int == 0x0B || c as int == 0x0C || c as int == 0xA0
    || c as int == 0x1680 || 0x2000 <= c as int <= 0x200A
    || c as int == 0x2028 || c as int == 0x2029 || c as int == 0x202F
    || c as int == 0x205F || c as int == 0x3000 || c as int == 0xFEFF
  }

  function TrimStart(s: string): (r: string)
    ensures |r| <= |s|
    ensures r == [] || !IsJsSpace(r[0])
    decreases |s|
  {
    if s != [] && IsJsSpace(s[0]) then TrimStart(s[1..]) else s
  }

  function TrimEnd(s: string): (r: string)
    ensures |r| <= |s|
    ensures r == [] || !IsJsSpace(r[|r| - 1])
    decreases |s|
  {
    if s != [] && IsJsSpace(s[|s| - 1]) then TrimEnd(s[..|s| - 1]) else s
  }

  /** `String.prototype.trim`. */
  function Trim(s: string): string {
    TrimEnd(TrimStart(s))
  }

  /** `!s.trim()`: the string is empty or white space only. */
  predicate IsBlank(s: string) {
    Trim(s) == ""
  }

  /** A string is blank exactly when every character is white space. */
  lemma {:induction false} BlankIff(s: string)
    ensures IsBlank(s) <==> forall i :: 0 <= i < |s| ==> IsJsSpace(s[i])
    decreases |s|
  {
    if s != [] && IsJsSpace(s[0]) {
      BlankIff(s[1..]);
      assert TrimStart(s) == TrimStart(s[1..]);
      if forall i :: 0 <= i < |s[1..]| ==> IsJsSpace(s[1..][i]) {
        forall i | 0 <= i < |s| ensures IsJsSpace(s[i]) {
          if i > 0 { assert s[i] == s[1..][i - 1]; }
        }
      }
    } else if s != [] {
      var t := TrimStart(s);
      assert t == s;
      assert !IsJsSpace(s[0]);
      var e := TrimEnd(t);
      if e == [] {
        TrimEndKeepsNonSpaceHead(t);
      }
    }
  }

  lemma {:induction false} TrimEndKeepsNonSpaceHead(s: string)
    requires s != [] && !IsJsSpace(s[0])
    ensures TrimEnd(s) != []
    decreases |s|
  {
    if IsJsSpace(s[|s| - 1]) {
      assert |s| > 1;
      TrimEndKeepsNonSpaceHead(s[..|s| - 1]);
    }
  }

  /** `String.prototype.slice(start, end)`: negative positions count from the
      end, and both positions are clamped into `0..|s|`. */
  function JsSlice(s: string, start: int, end: int): (r: string)
    ensures |r| <= |s|
  {
    var from := RelativeIndex(start, |s|);
    var to := RelativeIndex(end, |s|);
    if from >= to then "" else s[from..to]
  }

  function RelativeIndex(k: int, len: nat): (r: nat)
    ensures r <= len
  {
    if k < 0 then (if len + k < 0 then 0 else len + k)
    else if k > len then len else k
  }
}

=== FILE: translation.dfy ===
/** The translation lookup `t` of src/contexts/TranslationContext.tsx and the
    check applied to the language saved in local storage. `t` splits its key
    on '.' and walks nested objects, first in the current language's table
    and, from the first missing segment on, in the English table; a walk
    that misses, or ends on something other than a string, yields the key
    itself. The three tables in the source are flat objects whose keys all
    contain a dot, so no walk ever gets past its first segment. */
module Translation {
  import opened Wrappers
  import opened Assoc

  datatype Language = En | Hi | Or

  const DefaultLanguage := En

  /** A translation table: a string, or an object of named sub-tables. */
  datatype TValue = TStr(s: string) | TObj(entries: seq<(string, TValue)>)

  type Tables = Language -> TValue

  // --------------------------------------------------------- key splitting

  /** `s.split(sep)`: the text between separators, empty pieces included. */
  function Split(s: string, sep: char): (r: seq<string>)
    ensures |r| >= 1
    ensures forall i :: 0 <= i < |r| ==> sep !in r[i]
    decreases |s|
  {
    if s == [] then [""]
    else
      var rest := Split(s[1..], sep);
      if s[0] == sep then [""] + rest
      else [[s[0]] + rest[0]] + rest[1..]
  }

  /** `parts.join(sep)`. */
  function JoinWith(parts: seq<string>, sep: char): string
    requires |parts| >= 1
    decreases |parts|
  {
    if |parts| == 1 then parts[0] else parts[0] + [sep] + JoinWith(parts[1..], sep)
  }

  /** Splitting loses nothing: joining the pieces gives the key back. */
  lemma {:induction false} JoinSplit(s: string, sep: char)
    ensures JoinWith(Split(s, sep), sep) == s
    decreases |s|
  {
    if s != [] {
      var rest := Split(s[1..], sep);
      JoinSplit(s[1..], sep);
      if s[0] == sep {
        assert Split(s, sep)[1..] == rest;
      } else if |rest| == 1 {
        assert s == [s[0]] + s[1..];
      } else {
        assert Split(s, sep)[1..] == rest[1..];
        assert JoinWith(rest, sep) == rest[0] + [sep] + JoinWith(rest[1..], sep);
        assert s == [s[0]] + s[1..];
      }
    }
  }

  // --------------------------------------------------------------- lookup

  /** One pass of the loop: follow `keys` from `v`; `None` at the first
      segment that is missing or meets a non-object. */
  function Walk(v: TValue, keys: seq<string>): (r: Option<TValue>)
    ensures keys == [] ==> r == Some(v)
    ensures keys != [] && (v.TStr? || Lookup(v.entries, keys[0]).None?) ==> r.None?
    decreases |keys|
  {
    if keys == [] then Some(v)
    else match v
      case TStr(_) => None
      case TObj(es) =>
        match Lookup(es, keys[0])
        case None => None
        case Some(child) => Walk(child, keys[1..])
  }

  /** `t(key)` in language `lang`. */
  function T(tables: Tables, lang: Language, key: string): (r: string)
    ensures r == key || exists l :: Walk(tables(l), Split(key, '.')) == Some(TStr(r))
  {
    var keys := Split(key, '.');
    match Walk(tables(lang), keys)
    case Some(v) => if v.TStr? then v.s else key
    case None =>
      match Walk(tables(En), keys)
      case Some(TStr(s)) => s
      case _ => key
  }

  /** A path that reaches a string in the current language yields that
      string. */
  lemma TFindsString(tables: Tables, lang: Language, key: string, s: string)
    requires Walk(tables(lang), Split(key, '.')) == Some(TStr(s))
    ensures T(tables, lang, key) == s
  {
  }

  /** A path that reaches an object (a whole section) in the current language
      gives the key back, without trying English. */
  lemma TStopsAtSection(tables: Tables, lang: Language, key: string)
    requires Walk(tables(lang), Split(key, '.')).Some? && !Walk(tables(lang), Split(key, '.')).value.TStr?
    ensures T(tables, lang, key) == key
  {
  }

  /** A path that misses in the current language is looked up in English,
      exactly as `t` would look it up with English selected. */
  lemma TFallsBackToEnglish(tables: Tables, lang: Language, key: string)
    requires Walk(tables(lang), Split(key, '.')).None?
    ensures T(tables, lang, key) == T(tables, En, key)
  {
  }

  /** The shape of the source's tables: objects of strings under keys that
      each contain a dot. */
  predicate FlatDotted(v: TValue) {
    v.TObj? && forall i :: 0 <= i < |v.entries| ==> '.' in v.entries[i].0 && v.entries[i].1.TStr?
  }

  /** With flat tables of dotted keys `t` returns its argument unchanged, in
      every language and for every key: the first segment has no dot, so
      no table has it. */
  lemma FlatTablesNeverResolve(tables: Tables, lang: Language, key: string)
    requires FlatDotted(tables(lang)) && FlatDotted(tables(En))
    ensures T(tables, lang, key) == key
  {
    var keys := Split(key, '.');
    assert '.' !in keys[0];
    assert Lookup(tables(lang).entries, keys[0]).None?;
    assert Lookup(tables(En).entries, keys[0]).None?;
  }

  /** The `message.*` entries of the English table (src/contexts/TranslationContext.tsx:131-141). */
  const EnglishMessages: seq<(string, TValue)> := [
    ("message.location_detected", TStr("Location detected successfully!")),
    ("message.location_coordinates", TStr("Location detected (coordinates only)")),
    ("message.location_denied", TStr("Location access denied by user.")),
    ("message.location_unavailable", TStr("Location information is unavailable.")),
    ("message.location_timeout", TStr("Location request timed out.")),
    ("message.geolocation_not_supported", TStr("Geolocation is not supported by this browser.")),
    ("message.produce_registered", TStr("Produce registered successfully on blockchain!")),
    ("message.quality_check_complete", TStr("Quality analysis complete! Score: {score}%")),
    ("message.voice_assistant_activated", TStr("Voice assistant activated")),
    ("message.upload_images_first", TStr("Please upload at least one image first")),
    ("message.run_quality_check_first", TStr("Please run quality check first"))]

  /** A table holding just the English messages in every language. */
  function MessageTables(l: Language): (r: TValue)
    ensures FlatDotted(r)
  {
    var r := TObj(EnglishMessages);
    assert forall i :: 0 <= i < |EnglishMessages| ==> EnglishMessages[i].0[7] == '.';
    r
  }

  /** As written, asking for a message yields the message's key, not its
      text. */
  lemma MessageKeyShown(lang: Language)
    ensures T(MessageTables, lang, "message.upload_images_first") == "message.upload_images_first"
  {
    FlatTablesNeverResolve(MessageTables, lang, "message.upload_images_first");
  }

  /** The lookup the flat tables call for: the whole key in the current
      table, then in English, then the key itself. */
  function TFlat(tables: Tables, lang: Language, key: string): (r: string)
    ensures (tables(lang).TObj? && Lookup(tables(lang).entries, key).Some?
             && Lookup(tables(lang).entries, key).value.TStr?) ==> r == Lookup(tables(lang).entries, key).value.s
    ensures r == key || exists l :: tables(l).TObj? && Lookup(tables(l).entries, key) == Some(TStr(r))
  {
    match Walk(tables(lang), [key])
    case Some(TStr(s)) => s
    case _ =>
      match Walk(tables(En), [key])
      case Some(TStr(s)) => s
      case _ => key
  }

  /** The corrected lookup finds the text of every English message. */
  lemma TFlatFindsMessages(lang: Language, i: int)
    requires 0 <= i < |EnglishMessages|
    ensures TFlat(MessageTables, lang, EnglishMessages[i].0) == EnglishMessages[i].1.s
  {
    forall a, b | 0 <= a < b < |EnglishMessages| ensures EnglishMessages[a].0 != EnglishMessages[b].0 {
      assert |EnglishMessages[a].0| != |EnglishMessages[b].0| || EnglishMessages[a].0[9] != EnglishMessages[b].0[9]
        || EnglishMessages[a].0[17] != EnglishMessages[b].0[17];
    }
    LookupDistinct(EnglishMessages, i);
  }

  // ------------------------------------------------------- saved language

  function Code(l: Language): (r: string)
    ensures |r| == 2
  {
    match l
    case En => "en"
    case Hi => "hi"
    case Or => "or"
  }

  /** On load: the saved value is adopted only when it is 'en', 'hi' or
      'or'; anything else, or nothing saved, keeps the current language. */
  function LoadSavedLanguage(saved: Option<string>, current: Language): (r: Language)
    ensures saved.Some? && saved.value in ["en", "hi", "or"] ==> Code(r) == saved.value
    ensures saved.None? || saved.value !in ["en", "hi", "or"] ==> r == current
  {
    match saved
    case Some("en") => En
    case Some("hi") => Hi
    case Some("or") => Or
    case _ => current
  }

  /** Saving a language with `setLanguage` and loading it back restores it,
      and the three codes are distinct. */
  lemma SaveThenLoad(l: Language, current: Language, m: Language)
    ensures LoadSavedLanguage(Some(Code(l)), current) == l
    ensures Code(l) == Code(m) ==> l == m
  {
  }
}

=== FILE: utf8.dfy ===
/** UTF-8 as defined by RFC 3629: the byte form `ethers.toUtf8Bytes` gives a
    string before it is hashed. A Dafny `char` is a Unicode scalar value, so
    every string here is encodable; the decoder is the partner that shows no
    two strings share an encoding. */
module Utf8 {
  import opened Wrappers

  type byte = x: int | 0 <= x < 256

  /** Scalar values: what a `char` may hold. */
  predicate IsScalar(cp: int) {
    0 <= cp < 0xD800 || 0xE000 <= cp < 0x110000
  }

  /** The one to four bytes of one scalar value (section 3 of RFC 3629). */
  function EncodeChar(c: char): (r: seq<byte>)
    ensures 1 <= |r| <= 4
    ensures |r| == 1 <==> (c as int) < 0x80
    ensures r[0] < 0x80 || 0xC2 <= r[0] < 0xF5
    ensures forall i :: 1 <= i < |r| ==> 0x80 <= r[i] < 0xC0
  {
    var cp := c as int;
    if cp < 0x80 then [cp]
    else if cp < 0x800 then [0xC0 + cp / 64, 0x80 + cp % 64]
    else if cp < 0x10000 then [0xE0 + cp / 4096, 0x80 + (cp / 64) % 64, 0x80 + cp % 64]
    else [0xF0 + cp / 262144, 0x80 + (cp / 4096) % 64, 0x80 + (cp / 64) % 64, 0x80 + cp % 64]
  }

  function Encode(s: string): (r: seq<byte>)
    ensures |s| <= |r| <= 4 * |s|
    ensures s == [] <==> r == []
  {
    if s == [] then [] else EncodeChar(s[0]) + Encode(s[1..])
  }

  predicate IsCont(b: byte) {
    0x80 <= b < 0xC0
  }

  /** The scalar value of the sequence at the head of `bs` and its length;
      `None` for a stray continuation byte, a truncated sequence, an overlong
      form, a surrogate or a value above U+10FFFF. */
  function DecodeChar(bs: seq<byte>): (r: Option<(char, nat)>)
    ensures r.Some? ==> 1 <= r.value.1 <= |bs| && r.value.1 <= 4
  {
    if bs == [] then None
    else
      var b0: int := bs[0];
      if b0 < 0x80 then Some((b0 as char, 1))
      else if 0xC0 <= b0 < 0xE0 then
        if |bs| < 2 || !IsCont(bs[1]) then None
        else
          var cp := (b0 - 0xC0) * 64 + (bs[1] as int - 0x80);
          if cp < 0x80 then None else Some((cp as char, 2))
      else if 0xE0 <= b0 < 0xF0 then
        if |bs| < 3 || !IsCont(bs[1]) || !IsCont(bs[2]) then None
        else
          var cp := ((b0 - 0xE0) * 64 + (bs[1] as int - 0x80)) * 64 + (bs[2] as int - 0x80);
          if cp < 0x800 || !IsScalar(cp) then None else Some((cp as char, 3))
      else if 0xF0 <= b0 < 0xF8 then
        if |bs| < 4 || !IsCont(bs[1]) || !IsCont(bs[2]) || !IsCont(bs[3]) then None
        else
          var cp := (((b0 - 0xF0) * 64 + (bs[1] as int - 0x80)) * 64 + (bs[2] as int - 0x80)) * 64 + (bs[3] as int - 0x80);
          if cp < 0x10000 || !IsScalar(cp) then None else Some((cp as char, 4))
      else None
  }

  function Decode(bs: seq<byte>): (r: Option<string>)
    ensures r.Some? ==> |r.value| <= |bs|
    decreases |bs|
  {
    if bs == [] then Some([])
    else match DecodeChar(bs)
      case None => None
      case Some((c, n)) =>
        match Decode(bs[n..])
        case None => None
        case Some(t) => Some([c] + t)
  }

  /** The encoding of one character decodes to it, whatever follows. */
  lemma DecodeEncodeChar(c: char, rest: seq<byte>)
    ensures DecodeChar(EncodeChar(c) + rest) == Some((c, |EncodeChar(c)|))
  {
    var cp := c as int;
    var e := EncodeChar(c);
    var bs := e + rest;
    if cp < 0x80 {
    } else if cp < 0x800 {
      assert bs[0] == e[0] && bs[1] == e[1];
      assert (cp / 64) * 64 + cp % 64 == cp;
    } else if cp < 0x10000 {
      assert bs[0] == e[0] && bs[1] == e[1] && bs[2] == e[2];
      Split3(cp);
    } else {
      assert bs[0] == e[0] && bs[1] == e[1] && bs[2] == e[2] && bs[3] == e[3];
      Split4(cp);
    }
  }

  lemma Split3(cp: int)
    requires 0 <= cp < 0x10000
    ensures ((cp / 4096) * 64 + (cp / 64) % 64) * 64 + cp % 64 == cp
  {
    var q := cp / 64;
    assert q * 64 + cp % 64 == cp;
    assert (q / 64) * 64 + q % 64 == q;
    assert q / 64 == cp / 4096;
  }

  lemma Split4(cp: int)
    requires 0 <= cp < 0x110000
    ensures (((cp / 262144) * 64 + (cp / 4096) % 64) * 64 + (cp / 64) % 64) * 64 + cp % 64 == cp
  {
    var q := cp / 64;
    var q2 := q / 64;
    assert q * 64 + cp % 64 == cp;
    assert q2 * 64 + q % 64 == q;
    assert (q2 / 64) * 64 + q2 % 64 == q2;
    assert q2 == cp / 4096;
    assert q2 / 64 == cp / 262144;
  }

  /** Decoding undoes encoding. */
  lemma {:induction false} DecodeEncode(s: string)
    ensures Decode(Encode(s)) == Some(s)
    decreases |s|
  {
    if s != [] {
      var e := EncodeChar(s[0]);
      var bs := Encode(s);
      assert bs == e + Encode(s[1..]);
      DecodeEncodeChar(s[0], Encode(s[1..]));
      assert bs[|e|..] == Encode(s[1..]);
      DecodeEncode(s[1..]);
      assert [s[0]] + s[1..] == s;
    }
  }

  /** Distinct strings have distinct encodings, so the bytes handed to the
      hash determine the printed text. */
  lemma EncodeInjective(s: string, t: string)
    requires Encode(s) == Encode(t)
    ensures s == t
  {
    DecodeEncode(s);
    DecodeEncode(t);
  }
}

=== FILE: web3_config.dfy ===
/** The label tables of frontend/src/config/web3Config.ts: the user-role
    constants and the two index-to-name helpers. Both helpers index a fixed
    array and fall back to 'Unknown' through `||`, which also catches an
    index outside the array (`undefined`). */
module Web3Config {
  const FARMER := 0
  const DISTRIBUTOR := 1
  const RETAILER := 2
  const CONSUMER := 3
  const ADMIN := 4

  const RoleNames: seq<string> := ["Farmer", "Distributor", "Retailer", "Consumer", "Admin"]

  const StatusNames: seq<string> := [
    "Harvested", "Packaged", "In Transit to Distributor", "At Distributor",
    "In Transit to Retailer", "At Retailer", "Delivered to Consumer", "Expired"]

  /** `array[i] || 'Unknown'`: an index outside the array reads `undefined`;
      an empty entry would be falsy too. */
  function LabelAt(names: seq<string>, i: int): (r: string)
    ensures r != ""
    ensures 0 <= i < |names| && names[i] != "" ==> r == names[i]
    ensures !(0 <= i < |names|) ==> r == "Unknown"
  {
    if 0 <= i < |names| && names[i] != "" then names[i] else "Unknown"
  }

  /** `getRoleText`. */
  function GetRoleText(role: int): (r: string)
    ensures r != ""
    ensures 0 <= role < 5 ==> r == RoleNames[role]
    ensures (role < 0 || role >= 5) <==> r == "Unknown"
  {
    LabelAt(RoleNames, role)
  }

  /** `getStatusText`. */
  function GetStatusText(status: int): (r: string)
    ensures r != ""
    ensures 0 <= status < 8 ==> r == StatusNames[status]
    ensures (status < 0 || status >= 8) <==> r == "Unknown"
  {
    LabelAt(StatusNames, status)
  }

  /** Each role constant is named after itself. */
  lemma RoleConstantsNamed()
    ensures GetRoleText(FARMER) == "Farmer" && GetRoleText(DISTRIBUTOR) == "Distributor"
    ensures GetRoleText(RETAILER) == "Retailer" && GetRoleText(CONSUMER) == "Consumer"
    ensures GetRoleText(ADMIN) == "Admin"
  {
  }

  /** Distinct roles and statuses have distinct names. */
  lemma LabelsInjective(a: int, b: int)
    ensures 0 <= a < 5 && 0 <= b < 5 && GetRoleText(a) == GetRoleText(b) ==> a == b
    ensures 0 <= a < 8 && 0 <= b < 8 && GetStatusText(a) == GetStatusText(b) ==> a == b
  {
    NamesDistinct();
  }

  lemma NamesDistinct()
    ensures forall i, j :: 0 <= i < j < |RoleNames| ==> RoleNames[i] != RoleNames[j]
    ensures forall i, j :: 0 <= i < j < |StatusNames| ==> StatusNames[i] != StatusNames[j]
  {
    // Role names of equal length differ in their first letter; status names
    // all differ in length.
    forall i, j | 0 <= i < j < |RoleNames| ensures RoleNames[i] != RoleNames[j] {
      assert |RoleNames[i]| != |RoleNames[j]| || RoleNames[i][0] != RoleNames[j][0];
    }
    forall i, j | 0 <= i < j < |StatusNames| ensures StatusNames[i] != StatusNames[j] {
      assert |StatusNames[i]| != |StatusNames[j]|;
    }
  }
}

=== FILE: wrappers.dfy ===
/** Optional values, used wherever the modelled code returns `null`,
    `undefined` or `None`, or where a call into foreign code may throw. */
module Wrappers {

  datatype Option<+T> = None | Some(value: T) {

    /** The value, or `default` when there is none. */
    function GetOr(default: T): T {
      match this
      case Some(v) => v
      case None => default
    }
  }
}
